=== FILE: README.md ===
# pyotify token layer and request builders, in Dafny

A model of the parts of pyotify, a Python client for the Spotify Web API, that decide things rather than forward them. The model covers:

- **Token helpers** (`pyotify/utils.py`): scope normalisation, the expiry test with its 60-second early-refresh margin, the HTTP Basic `Authorization` header, and the `expires_at` stamp.
- **Authenticators** (`pyotify/auth.py`):
  - the client-credentials `get_access_token` cache-or-reacquire rule, with its two requests;
  - for `SpotifyUserAuth`: the constructor, `get_cached_token`, `get_authorize_url` and `refresh_access_token`.
- **Client** (`pyotify/client.py`): the `_api_call` contract, the track-removal, reorder and replace bodies, and the eight wrappers that send `','.join(ids)`.

Everything is a pure function:

- **Tokens and bodies.** A token is a `map<string, Json.Value>`. A dict whose key order matters (a query, a form, a JSON body) is an ordered `seq<(string, Value)>` built with `Json.Put`, which is `d[k] = v`.
- **The outside world.** Wall-clock time (`now`), the cache file's content, the text of `scopes.txt`, the pasted authorization code and every HTTP reply are parameters.
- **Requests.** Every request the code would send is part of the result (`Http.Exchange`).
- **Errors.** A raised exception is `Err(PyError)`.

Modules:

| file | module | contents |
|---|---|---|
| `wrappers.dfy` | `Wrappers` | `Option`, `Result`, the Python exceptions raised, Python truthiness of an optional string |
| `json.dfy` | `Json` | JSON values, tokens, ordered dicts (`Put`, `PutIf`, `Lookup`, `Keys`), Python's `int` view of a JSON number or bool |
| `strings.dfy` | `Strings` | code-point order on strings, insertion sort, uniqueness of the sorted permutation |
| `words.dfy` | `Words` | `str.split()` on Python whitespace, `str.split(sep)`, `sep.join`, decimal `str(int)` |
| `base64.dfy` | `Base64` | section 4 of RFC 4648: encoder, strict decoder, round trip |
| `urlencode.dfy` | `UrlEncoding` | UTF-8 (RFC 3629), `quote_plus`, `urlencode`, and a query parser that inverts them |
| `http.dfy` | `Http` | requests, replies, `raise_for_status` |
| `utils.dfy` | `Utils` | the token helpers |
| `auth.dfy` | `Auth` | both authenticators |
| `client.dfy` | `Client` | `_api_call` and the computed request bodies |

Behaviour of the code that the model keeps, although a reader might expect otherwise:

- **Status check.** `raise_for_status` raises for statuses 400-599 only; an informational or redirect status passes.
- **Token endpoint.** `_request_token` never checks the token endpoint's status (see Findings). `refresh_access_token` does check it.
- **Cache file.** A cache file that is not valid JSON raises `JSONDecodeError`. An authenticator built without `cached_token_path` raises `TypeError` in `get_cached_token` (see Findings).
- **Stored `state`.** It is never sent (see Findings).
- **Default scope.** `SpotifyUserAuth` with the default `scope=None` raises `AttributeError` (see Findings).
- **Partial failure.** A token reply without `expires_in` leaves the unstamped reply stored, so a failed acquisition still changes the authenticator.

## Model

| member | source | states |
|---|---|---|
| Utils.NormalizeScope | pyotify/utils.py:5-6 | The result's words are a permutation of the input's whitespace-separated words, duplicates kept. They are in code-point order. The result has no leading, trailing or doubled whitespace, and it is "" exactly when the input has no words. |
| Utils.NormalizeScopeIdempotent | pyotify/utils.py:5-6 | Normalising a normalised scope changes nothing. |
| Utils.NormalizeScopeEquivalence | pyotify/utils.py:5-6 | Two scopes normalise alike if and only if they hold the same multiset of words. |
| Strings.Sort | pyotify/utils.py:6 | `sorted` on the words: a permutation of its input, ordered by code point. |
| Strings.SortedPermutationUnique | pyotify/utils.py:6 | Two sorted sequences with the same elements are equal, so the sorted result is determined by the multiset of words. |
| Strings.SortOfSorted | pyotify/utils.py:6 | Sorting an already sorted word list leaves it unchanged. |
| Strings.LessEqTotal | pyotify/utils.py:6 | Python's string order is total. |
| Strings.LessEqTransitive | pyotify/utils.py:6 | Python's string order is transitive. |
| Strings.LessEqAntisymmetric | pyotify/utils.py:6 | Python's string order is antisymmetric. |
| Words.Split | pyotify/utils.py:6 | `str.split()` yields non-empty words free of whitespace, where whitespace is every character Python's `str.isspace` accepts, not only ASCII. The words joined by single spaces are the input with its ends trimmed and each inner whitespace run written as one ' ', which fixes where every word begins and ends. The words put together are exactly the input's non-whitespace characters in order, and there is one word for each position where a non-whitespace character follows whitespace or starts the string. |
| Words.SplitJoin | pyotify/utils.py:6 | Splitting the single-space join of non-empty, space-free words gives those words back. |
| Words.JoinCanonical | pyotify/utils.py:6 | `' '.join` of words has no leading, trailing or repeated separator, and is empty only for no words. |
| Utils.IsTokenExpired | pyotify/utils.py:9-10 | A missing `expires_at` raises `KeyError`, and a non-number raises. Otherwise the token is expired if and only if `expires_at - now < offset`, strictly, with a default offset of 60. |
| Utils.IsTokenExpiredMonotone | pyotify/utils.py:9-10 | A token expired at `now` is still expired at any later time. |
| Json.AsInt | pyotify/utils.py:10 | The arithmetic accepts JSON integers and, as Python does, booleans as 0/1. Anything else raises `TypeError`. |
| Utils.AuthorizationHeaders | pyotify/utils.py:13-15 | The result is one `Authorization` entry, "Basic " followed by 4*ceil(n/3) symbols. Strict RFC 4648 decoding of them gives back `client_id:client_secret` as ASCII bytes; since the decoder accepts exactly one text per byte sequence (`Base64.EncodeDecode`), this fixes the symbols. A non-ASCII character in either part raises `UnicodeEncodeError`. |
| Base64.DecodeEncode | pyotify/utils.py:14 | Strict RFC 4648 decoding of `b64encode`'s output returns the original bytes. |
| Base64.EncodeDecode | pyotify/utils.py:14 | Every text the strict decoder accepts (alphabet, '=' only as final padding, zero pad bits as section 3.5 of RFC 4648 requires) is the `b64encode` output of what it decodes to, so decoding is injective. |
| Base64.EncodeLength | pyotify/utils.py:14 | `b64encode` writes four symbols for every started group of three bytes. |
| Utils.AddCustomValuesToToken | pyotify/utils.py:18-22 | It raises `KeyError` for a missing `expires_in`, and raises for a non-number. Otherwise it sets `expires_at = expires_in + now`, and sets `scope` only for a truthy scope. Every other entry is unchanged, and no other key appears. |
| Utils.FreshTokenExpiry | pyotify/utils.py:9-22 | A token stamped at `now` with `expires_in = e` is expired at that same `now` if and only if `e < 60`. |
| Auth.GetAccessToken | pyotify/auth.py:25-62 | A held, unexpired token returns its `access_token`, sends nothing and leaves the state unchanged. An error from the guard is raised as is, with nothing sent. Otherwise it sends the authorize GET; an `HTTPError` from that step is raised unchanged, with the state untouched. If the GET succeeds, the next request is the token POST carrying the pasted code. The call succeeds exactly when both requests go through, the reply stamps, and it has `access_token`. On success it stores the pasted code and the stamped reply, and returns the new `access_token`. The reply is stamped at the second clock reading, taken after the prompt, not at the one the guard used. |
| Auth.GetAccessTokenThenCached | pyotify/auth.py:25-31 | After an acquisition whose lifetime covers the margin, a call at the second the reply was stamped sends nothing and returns the same value. |
| Auth.RequestToken | pyotify/auth.py:33-46 | It sends exactly one POST to the token URL with the Basic header and the form `grant_type=authorization_code`, `code`, and the module-level `redirect_uri`. It returns the decoded body whatever the status. |
| Auth.RequestTokenIgnoresStatus | pyotify/auth.py:43-46 | Two replies that differ only in status give the same outcome. |
| Auth.RequestAccessCode | pyotify/auth.py:48-66 | It sends one GET to the authorize URL with `client_id`, `response_type=code`, `redirect_uri` and the scope file's text, in that order. An error status raises `HTTPError`; otherwise it returns the pasted code. |
| Auth.GetAccessTokenWedged | pyotify/auth.py:26-30 | A token reply without `expires_in` (an error document) raises `KeyError('expires_in')` but stays stored. Every later call then raises `KeyError('expires_at')` and sends nothing. |
| Auth.GetAccessTokenChecked | pyotify/auth.py:28-30 | Corrected flow: an error status from the token endpoint raises `HTTPError` and leaves the held token unchanged. A success always stores a stamped token. |
| Auth.NewUserAuth | pyotify/auth.py:75-81 | Construction fails with `AttributeError` exactly when `scope` is `None`, the default. Otherwise the other fields, including `cached_token_path`, are kept, and the scope is the normalised one: canonical, sorted, the same words, and "" for a scope with no words. |
| Auth.NewUserAuthIntended | pyotify/auth.py:80 | Corrected constructor: a missing scope is the empty scope, and the constructor otherwise agrees with `NewUserAuth`. |
| Auth.DefaultScopeRaises | pyotify/auth.py:75-80 | `SpotifyUserAuth(id, secret, uri)` with its own defaults never yields an authenticator. |
| Auth.GetCachedToken | pyotify/auth.py:83-94 | Without a cache path it raises `TypeError`. With no file it returns None, and with unparsable JSON it raises. A non-object document raises `TypeError`, unless it is a list or string that fails the `'scope'` test, which returns None. An object without `scope` returns None and sends nothing. An unexpired token is returned as stored. An expired token is replaced by `refresh_access_token(token['refresh_token'])`, stamped at the clock reading taken after the refresh request. The refresh's requests are the ones sent, and its error, such as the `HTTPError` for an error status, is the one raised. A missing `refresh_token` raises `KeyError`. It sends requests only in the refresh case. |
| Auth.HasScope | pyotify/auth.py:89 | `'scope' in token` is a key test on an object, an element test on a list and a substring test on a string; on `null`, a bool or a number it raises `TypeError`. |
| Json.ObjectOf | pyotify/auth.py:88 | The dict `json.loads` builds from an object has exactly the object's member keys, and each key is bound to the value of its last member. |
| Auth.GetCachedTokenUnexpired | pyotify/auth.py:83-94 | A token `get_cached_token` returns is unexpired at that second, provided a refresh grants at least the 60-second margin and the clock does not run backwards between the check and the stamp. |
| Auth.DefaultCachePathRaises | pyotify/auth.py:75-86 | An authenticator built with the default `cached_token_path=None` raises `TypeError` in every `get_cached_token` call, while the corrected method returns None. |
| Auth.GetCachedTokenIntended | pyotify/auth.py:86 | Corrected method: without a cache path there is no cached token; with one it behaves as written. |
| Auth.AuthorizePayload | pyotify/auth.py:100-112 | `client_id`, `response_type=code` and `redirect_uri` are always present. `scope` is present if and only if the scope is non-empty, `state` if and only if an explicit state is passed, and `show_dialog=True` if and only if requested. |
| Auth.AuthorizePayloadKeys | pyotify/auth.py:100-112 | The query keys are in insertion order: the three fixed keys, then `scope`, `state` and `show_dialog` as applicable. |
| Auth.AuthorizePayloadScalar | pyotify/auth.py:100-114 | Every query value is a scalar that `urlencode` writes with `str`. |
| Auth.StoredStateNeverSent | pyotify/auth.py:107-110 | The instance's stored `state` has no influence on the query. |
| Auth.StoredStateDiscarded | pyotify/auth.py:107-110 | With a stored state and no argument, the query has no `state`, while the corrected query has the stored one. |
| Auth.AuthorizePayloadIntended | pyotify/auth.py:107-110 | Corrected query: an explicit `state` wins and the stored one is the fallback. `scope` and `show_dialog` are as before. |
| Auth.GetAuthorizeUrl | pyotify/auth.py:99-116 | The URL is the authorize endpoint, then '?', then a query that parses back to exactly the payload's key/`str(value)` pairs, in order. |
| UrlEncoding.UrlEncodeRoundTrip | pyotify/auth.py:114 | Parsing `urlencode(payload)` (split on '&' and '=', undo `quote_plus`) gives the payload's pairs back. |
| UrlEncoding.QuotePlusRoundTrip | pyotify/auth.py:114 | `unquote_plus(quote_plus(s)) == s` for every string. |
| UrlEncoding.QuotePlusFree | pyotify/auth.py:114 | `quote_plus` output contains no '&' and no '=', so fields and pairs can be split apart. |
| UrlEncoding.Utf8RoundTrip | pyotify/auth.py:114 | The UTF-8 bytes `quote_plus` escapes decode back to the original string. |
| Auth.RefreshAccessToken | pyotify/auth.py:118-133 | It sends one POST with `refresh_token` and `grant_type=refresh_token`, and an error status raises `HTTPError`. On success the result adds exactly `expires_at = expires_in + now` and `refresh_token`. `refresh_token` is the reply's own if present, else the argument. Every other entry of the reply is kept. |
| Client.PerformApiCall | pyotify/client.py:29-44 | It sends one request to the API prefix followed by the path, with exactly a `Bearer <token>` header. An error status raises `HTTPError`. An empty body returns "REQUEST <label> OK!" ("None" without a label), and only an empty body gives a message. Otherwise it returns the decoded document, or raises for an undecodable one. |
| Client.TrackUri | pyotify/client.py:218 | The id can be read back from `spotify:track:<id>`. |
| Client.OccurrenceEntry | pyotify/client.py:218 | A tuple gives `uri` from `arg[0]` and `positions` from `arg[1:]`. A plain string gives its first character and the rest, and an empty string raises `IndexError`. The entry has exactly the keys `uri` and `positions`, in that order. |
| Client.OccurrenceEntries | pyotify/client.py:218 | The comprehension fails exactly when some argument is an empty string. Otherwise it builds one entry per argument, in order. |
| Client.PlainEntries | pyotify/client.py:221 | One entry per argument, in order, whose only key is `uri`, naming `f"{arg}"`. |
| Client.SingleArgumentSameShape | pyotify/client.py:221 | The single-argument form of line 221 builds the same list as the comprehension. |
| Client.RemoveTracks | pyotify/client.py:216-227 | Empty `args` raises `IndexError`. The request is a DELETE on `playlists/<id>/tracks`. The body's `tracks` has one entry per argument, read back as each argument's id and positions, with no key besides `uri` and, in the tuple branch, `positions`. `snapshot_id` is added after `tracks` if and only if it is truthy. The label is the snapshot label when one is given, else the tuple label or the plain label. |
| Client.ReorderTracks | pyotify/client.py:229-234 | A PUT whose body holds `range_start`, `insert_before` and `range_length` (default 1) in that order. `snapshot_id` is appended if and only if it is truthy. |
| Client.ReplaceTracks | pyotify/client.py:236-239 | A PUT whose `uris` has one URI per id, in order, each reading back to its id. |
| Client.IdsCall | pyotify/client.py:135-157 | For follow, unfollow, and the save and remove wrappers of lines 261-275, it gives the verb, path, label and parameter order (`type` first for follow, last for unfollow). Splitting the sent `ids` on ',' gives back a non-empty list of comma-free ids, and an empty list sends `ids=''`. |
| Client.CommaJoinRoundTrip | pyotify/client.py:136 | `','.join(ids).split(',') == ids` for a non-empty list of comma-free ids. |
| Words.SplitOnJoin | pyotify/client.py:136 | `sep.join(fs).split(sep) == fs` for a non-empty list of fields free of `sep`. |
| Json.Put | pyotify/auth.py:105-112 | `d[k] = v` binds `k` to `v` and leaves every other key's binding unchanged. |
| Json.PutKeys | pyotify/auth.py:105-112 | `d[k] = v` keeps the key order and appends a new key last. |

## Left out

- **HTTP transport.** `requests` sessions, timeouts and `response.url` are out. Each reply is an input value: a status plus a decoded body.
- **JSON decoding.** A token-endpoint reply that is valid JSON but not an object becomes the decode error, not the later `TypeError` Python would raise. The cache file, by contrast, is modelled as any JSON document.
- **File I/O.** `os.path.exists`, reading the cache file and reading `scopes.txt` are out: their contents are parameters. `cached_token_path` is kept only as present or absent, and the refreshed token is not written back, as in the source.
- **Interactive and clock steps.** `print(response.url)` and `input(...)` are out, and the pasted code is a parameter. `time.time()` is read twice in an acquisition or a refresh: at the expiry check, as the parameter `now`, and when the reply is stamped, as `stampedAt`.
- **`json.dumps` serialisation.** A request body is carried as the JSON value it serialises.
- **`encode_image` and `upload_custom_playlist_cover_image`.** These are file reads.
- **Forwarding wrappers.** The client wrappers that only forward a parameter dict to `_get`/`_put`/`_post` are out, as are `max_retries`, `api_call_timeout`, and the `Spotify` constructor, whose token comes from `get_access_token` as modelled. Their behaviour is `Client.PerformApiCall` applied to a literal `ApiCall`.
- **Floating-point numbers.** `expires_in` / `expires_at` that are JSON floats are out; they raise `TypeError` in the model.
- **Concurrency.** The race between callers that refresh the same token concurrently is out; the model is single-threaded.
- **setup.py.** It is packaging metadata.
- Client.RemoveTracks: a tuple argument is modelled only as `(id, int, ...)` with a string id; other element types and the empty tuple are left out. A tuple printed in the plain branch uses `repr` for a printable id without quotes or backslashes; the escapes `repr` writes for other ids are left out.
- Client.PerformApiCall: the access token is taken as its text, since `f'Bearer {token}'` prints whatever `get_access_token` returned.
- Auth.GetAccessToken: a token reply that is valid JSON but not an object is stored in `self.token` by Python before `add_custom_values_to_token` raises `TypeError`; the model raises the decode error and stores nothing, so the next call can differ. `Auth.RefreshAccessToken` likewise raises the decode error for such a reply instead of `TypeError`.
- UrlEncoding.UrlEncodeRoundTrip: only the scalar values `get_authorize_url` can put in its query are covered (strings, `True`, integers, `None`). `urlencode` of lists or floats is left out.

## Findings

| source | as written | input that shows it | evidently intended | confidence | as-written member | corrected member |
|---|---|---|---|---|---|---|
| pyotify/auth.py:80 | `self.scope = utils.normalize_scope(scope)` with the default `scope=None` calls `None.split()` | `SpotifyUserAuth("id", "secret", "http://x/cb")` raises `AttributeError` | a missing scope is the empty scope, which is then omitted from the authorize query | high, not executed | Auth.DefaultScopeRaises | Auth.NewUserAuthIntended |
| pyotify/auth.py:107-110 | when no `state` argument is given, the stored `self.state` is assigned to a local that is never used | an authenticator built with `state="xyz"`, then `get_authorize_url()`: the query has no `state` | the stored CSRF `state` is sent unless an explicit one overrides it | medium, not executed | Auth.StoredStateDiscarded | Auth.AuthorizePayloadIntended |
| pyotify/auth.py:43-46 | `_request_token` decodes and stores the token endpoint's reply without checking its status | a 400 reply `{"error": "invalid_grant"}`: the call raises `KeyError('expires_in')`, and every later call raises `KeyError('expires_at')` | an error status raises `HTTPError` and no unusable token is kept | medium, not executed | Auth.GetAccessTokenWedged | Auth.GetAccessTokenChecked |
| pyotify/auth.py:75-86 | `get_cached_token` calls `os.path.exists(self.cached_token_path)`, and the constructor's default `cached_token_path=None` is passed through unchanged | `SpotifyUserAuth("id", "secret", "http://x/cb", scope="s").get_cached_token()` raises `TypeError` | an authenticator without a cache path has no cached token, so the call returns None | medium, not executed | Auth.DefaultCachePathRaises | Auth.GetCachedTokenIntended |

=== FILE: auth.dfy ===
/** The token layer of pyotify/auth.py. Wall-clock time, the token cache
    file, the scope file, the pasted authorization code and every HTTP
    reply are parameters; every request the code would send is returned. */
module Auth {
  import opened Wrappers
  import opened Json
  import opened Http
  import opened Utils
  import opened UrlEncoding

  const TokenUrl: string := "https://accounts.spotify.com/api/token"
  const AuthorizeUrl: string := "https://accounts.spotify.com/authorize"
  /** The module-level `redirect_uri` the credentials flow always sends. */
  const CallbackUri: string := "http://localhost:8888/callback/"

  /** The value `token['access_token']` returns. */
  function AccessTokenOf(token: Token): Result<Value> {
    if "access_token" in token then Ok(token["access_token"]) else Err(KeyError("access_token"))
  }

  // =====================================================================
  // SpotifyClientCredentialsAuth
  // =====================================================================

  /** The authenticator's fields; a new one holds neither a code nor a
      token. */
  datatype CredentialsAuth = CredentialsAuth(
    clientId: string,
    clientSecret: string,
    accessCode: Option<string>,
    token: Option<Token>)

  /** What the outside world supplies while a new token is acquired. */
  datatype Acquisition = Acquisition(
    scopeFile: string,        // the text of scopes.txt
    authorizeStatus: int,     // the status of the authorize request
    pastedCode: string,       // what the user types at the prompt
    tokenReply: TokenReply,   // the token endpoint's answer
    stampedAt: int)           // the clock reading when the reply is stamped

  /** `_request_access_code`: GET the authorize endpoint with the scope
      file's text as `scope`, raise on an error status, then return the
      code the user pastes. */
  function RequestAccessCode(auth: CredentialsAuth, acq: Acquisition): (r: Exchange<string>)
    ensures r.result.Ok? <==>
      IsAscii(auth.clientId) && IsAscii(auth.clientSecret) && !IsErrorStatus(acq.authorizeStatus)
    ensures r.result.Ok? ==> r.result.value == acq.pastedCode
    ensures r.sent == [] <==> !IsAscii(auth.clientId) || !IsAscii(auth.clientSecret)
    ensures r.sent != [] ==>
      r.sent == [Request(GET, AuthorizeUrl, AuthorizationHeaders(auth.clientId, auth.clientSecret).value,
                         [("client_id", Str(auth.clientId)), ("response_type", Str("code")),
                          ("redirect_uri", Str(CallbackUri)), ("scope", Str(acq.scopeFile))],
                         NoBody)]
    ensures r.sent != [] && IsErrorStatus(acq.authorizeStatus) ==> r.result == Err(HttpError(acq.authorizeStatus))
  {
    var headers := AuthorizationHeaders(auth.clientId, auth.clientSecret);
    if headers.Err? then Exchange([], Err(headers.error))
    else
      var params := [
        ("client_id", Str(auth.clientId)),
        ("response_type", Str("code")),
        ("redirect_uri", Str(CallbackUri)),
        ("scope", Str(acq.scopeFile))];
      var sent := [Request(GET, AuthorizeUrl, headers.value, params, NoBody)];
      if IsErrorStatus(acq.authorizeStatus) then Exchange(sent, Err(HttpError(acq.authorizeStatus)))
      else Exchange(sent, Ok(acq.pastedCode))
  }

  /** `_request_token`: POST the authorization code to the token endpoint
      and decode the reply. The reply's status is never looked at. */
  function RequestToken(auth: CredentialsAuth, code: string, reply: TokenReply): (r: Exchange<Token>)
    ensures r.result.Ok? <==>
      IsAscii(auth.clientId) && IsAscii(auth.clientSecret) && reply.body.Some?
    ensures r.result.Ok? ==> r.result.value == reply.body.value
    ensures r.sent == [] <==> !IsAscii(auth.clientId) || !IsAscii(auth.clientSecret)
    ensures r.sent != [] ==>
      r.sent == [Request(POST, TokenUrl, AuthorizationHeaders(auth.clientId, auth.clientSecret).value, [],
                         Form([("grant_type", Str("authorization_code")), ("code", Str(code)),
                               ("redirect_uri", Str(CallbackUri))]))]
  {
    var headers := AuthorizationHeaders(auth.clientId, auth.clientSecret);
    if headers.Err? then Exchange([], Err(headers.error))
    else
      var form := [
        ("grant_type", Str("authorization_code")),
        ("code", Str(code)),
        ("redirect_uri", Str(CallbackUri))];
      var sent := [Request(POST, TokenUrl, headers.value, [], Form(form))];
      if reply.body.None? then Exchange(sent, Err(JsonDecodeError))
      else Exchange(sent, Ok(reply.body.value))
  }

  /** An error status from the token endpoint changes nothing about what
      `_request_token` returns. */
  lemma RequestTokenIgnoresStatus(auth: CredentialsAuth, code: string, body: Option<Token>, s1: int, s2: int)
    ensures RequestToken(auth, code, TokenReply(s1, body)) == RequestToken(auth, code, TokenReply(s2, body))
  {
  }

  /** The guard of `get_access_token`: no token held (`None` or an empty
      dict, both falsy), or the held one expired at the default margin. */
  function NeedsNewToken(auth: CredentialsAuth, now: int): Result<bool> {
    if auth.token.None? || auth.token.value == map[] then Ok(true)
    else IsTokenExpired(auth.token.value, now)
  }

  /** One call of `get_access_token`: the authenticator afterwards, the
      requests sent, and the returned value or raised error. */
  datatype Step = Step(next: CredentialsAuth, sent: seq<Request>, result: Result<Value>)

  /** `get_access_token` at wall-clock second `now`. A held, unexpired token
      answers from memory. Otherwise a code is requested, exchanged, and
      the raw reply is stored before it is stamped in place, so a failure
      part-way leaves the fields as far as the Python assignments got. The
      clock is read again, as `acq.stampedAt`, when the new reply is
      stamped after the prompt. */
  function GetAccessToken(auth: CredentialsAuth, now: int, acq: Acquisition): (r: Step)
    ensures r.next.clientId == auth.clientId && r.next.clientSecret == auth.clientSecret
    ensures NeedsNewToken(auth, now) == Ok(false) ==>
      r.next == auth && r.sent == [] && r.result == AccessTokenOf(auth.token.value)
    ensures NeedsNewToken(auth, now).Err? ==>
      r.next == auth && r.sent == [] && r.result == Err(NeedsNewToken(auth, now).error)
    ensures NeedsNewToken(auth, now) == Ok(true) ==>
      var code := RequestAccessCode(auth, acq);
      && (code.result.Err? ==> r == Step(auth, code.sent, Err(code.result.error)))
      && (code.result.Ok? ==> r.sent == code.sent + RequestToken(auth, acq.pastedCode, acq.tokenReply).sent)
    ensures NeedsNewToken(auth, now) == Ok(true) ==>
      (r.result.Ok? <==>
        && IsAscii(auth.clientId) && IsAscii(auth.clientSecret)
        && !IsErrorStatus(acq.authorizeStatus)
        && acq.tokenReply.body.Some?
        && AddCustomValuesToToken(acq.tokenReply.body.value, acq.stampedAt).Ok?
        && "access_token" in acq.tokenReply.body.value)
    ensures NeedsNewToken(auth, now) == Ok(true) && r.result.Ok? ==>
      && |r.sent| == 2
      && r.next.accessCode == Some(acq.pastedCode)
      && r.next.token == Some(AddCustomValuesToToken(acq.tokenReply.body.value, acq.stampedAt).value)
      && r.result.value == acq.tokenReply.body.value["access_token"]
  {
    var needed := NeedsNewToken(auth, now);
    if needed.Err? then Step(auth, [], Err(needed.error))
    else if !needed.value then Step(auth, [], AccessTokenOf(auth.token.value))
    else
      var code := RequestAccessCode(auth, acq);
      if code.result.Err? then Step(auth, code.sent, Err(code.result.error))
      else
        var withCode := auth.(accessCode := Some(code.result.value));
        var raw := RequestToken(withCode, code.result.value, acq.tokenReply);
        var sent := code.sent + raw.sent;
        if raw.result.Err? then Step(withCode, sent, Err(raw.result.error))
        else
          var stamped := AddCustomValuesToToken(raw.result.value, acq.stampedAt);
          if stamped.Err? then Step(withCode.(token := Some(raw.result.value)), sent, Err(stamped.error))
          else Step(withCode.(token := Some(stamped.value)), sent, AccessTokenOf(stamped.value))
  }

  /** After a successful acquisition whose lifetime covers the margin, a
      call in the second the reply was stamped is answered from memory,
      sending nothing, whatever the outside world would have supplied. */
  lemma GetAccessTokenThenCached(auth: CredentialsAuth, now: int, acq: Acquisition, acq2: Acquisition)
    requires NeedsNewToken(auth, now) == Ok(true)
    requires GetAccessToken(auth, now, acq).result.Ok?
    requires AsInt(acq.tokenReply.body.value["expires_in"]).value >= DefaultExpiryOffset
    ensures var first := GetAccessToken(auth, now, acq);
            GetAccessToken(first.next, acq.stampedAt, acq2) == Step(first.next, [], first.result)
  {
    var first := GetAccessToken(auth, now, acq);
    var t := first.next.token.value;
    assert "expires_at" in t;
    assert t != map[];
  }

  /** A token-endpoint reply without `expires_in` (an error document, say)
      is stored unstamped; from then on every call raises `KeyError` on
      `expires_at` and never acquires a token again. */
  lemma {:induction false} GetAccessTokenWedged(auth: CredentialsAuth, now: int, acq: Acquisition, later: int, acq2: Acquisition)
    requires NeedsNewToken(auth, now) == Ok(true)
    requires IsAscii(auth.clientId) && IsAscii(auth.clientSecret)
    requires !IsErrorStatus(acq.authorizeStatus)
    requires acq.tokenReply.body.Some?
    requires "expires_in" !in acq.tokenReply.body.value && "expires_at" !in acq.tokenReply.body.value
    requires acq.tokenReply.body.value != map[]
    ensures var first := GetAccessToken(auth, now, acq);
            && first.result == Err(KeyError("expires_in"))
            && first.next.token == Some(acq.tokenReply.body.value)
            && GetAccessToken(first.next, later, acq2) == Step(first.next, [], Err(KeyError("expires_at")))
  {
    var first := GetAccessToken(auth, now, acq);
    var raw := acq.tokenReply.body.value;
    assert first.next.token == Some(raw);
    assert NeedsNewToken(first.next, later) == Err(KeyError("expires_at"));
  }

  /** The intended flow: check the token endpoint's status before storing
      anything, so an error reply raises `HttpError` and leaves the held
      token as it was. */
  function GetAccessTokenChecked(auth: CredentialsAuth, now: int, acq: Acquisition): (r: Step)
    ensures NeedsNewToken(auth, now) == Ok(false) ==>
      r.next == auth && r.sent == [] && r.result == AccessTokenOf(auth.token.value)
    ensures r.result.Err? ==> r.next.token == auth.token
    ensures NeedsNewToken(auth, now) == Ok(true)
            && IsAscii(auth.clientId) && IsAscii(auth.clientSecret)
            && !IsErrorStatus(acq.authorizeStatus) && IsErrorStatus(acq.tokenReply.status) ==>
      r.result == Err(HttpError(acq.tokenReply.status))
    ensures r.result.Ok? ==> r.next.token.Some? && "expires_at" in r.next.token.value
  {
    var needed := NeedsNewToken(auth, now);
    if needed.Err? then Step(auth, [], Err(needed.error))
    else if !needed.value then Step(auth, [], AccessTokenOf(auth.token.value))
    else
      var code := RequestAccessCode(auth, acq);
      if code.result.Err? then Step(auth, code.sent, Err(code.result.error))
      else
        var withCode := auth.(accessCode := Some(code.result.value));
        var raw := RequestToken(withCode, code.result.value, acq.tokenReply);
        var sent := code.sent + raw.sent;
        if IsErrorStatus(acq.tokenReply.status) then Step(withCode, sent, Err(HttpError(acq.tokenReply.status)))
        else if raw.result.Err? then Step(withCode, sent, Err(raw.result.error))
        else
          var stamped := AddCustomValuesToToken(raw.result.value, acq.stampedAt);
          if stamped.Err? then Step(withCode, sent, Err(stamped.error))
          else if "access_token" !in stamped.value then Step(withCode, sent, Err(KeyError("access_token")))
          else Step(withCode.(token := Some(stamped.value)), sent, Ok(stamped.value["access_token"]))
  }

  // =====================================================================
  // SpotifyUserAuth
  // =====================================================================

  /** The authenticator's fields; `scope` is already normalised. The cache
      file's content is a parameter of `GetCachedToken`; only its path is
      a field. */
  datatype UserAuth = UserAuth(
    clientId: string,
    clientSecret: string,
    redirectUri: string,
    state: Option<string>,
    scope: string,
    cachedTokenPath: Option<string>)

  /** `SpotifyUserAuth(...)`: normalises the scope on construction, so the
      default `scope=None` raises `AttributeError`. */
  function NewUserAuth(clientId: string, clientSecret: string, redirectUri: string,
                       state: Option<string> := None, scope: Option<string> := None,
                       cachedTokenPath: Option<string> := None): (r: Result<UserAuth>)
    ensures r.Err? <==> scope.None?
    ensures r.Err? ==> r.error == AttributeError
    ensures r.Ok? ==>
      && r.value.clientId == clientId && r.value.clientSecret == clientSecret
      && r.value.redirectUri == redirectUri && r.value.state == state
      && r.value.cachedTokenPath == cachedTokenPath
      && multiset(Words.Split(r.value.scope)) == multiset(Words.Split(scope.value))
      && Strings.Sorted(Words.Split(r.value.scope))
      && Words.Canonical(r.value.scope)
      && r.value.scope == NormalizeScope(scope.value)
  {
    if scope.None? then Err(AttributeError)
    else Ok(UserAuth(clientId, clientSecret, redirectUri, state, NormalizeScope(scope.value), cachedTokenPath))
  }

  /** The intended constructor: a missing scope is the empty scope. */
  function NewUserAuthIntended(clientId: string, clientSecret: string, redirectUri: string,
                               state: Option<string> := None, scope: Option<string> := None,
                               cachedTokenPath: Option<string> := None): (r: UserAuth)
    ensures scope.None? ==> r.scope == ""
    ensures scope.Some? ==> NewUserAuth(clientId, clientSecret, redirectUri, state, scope, cachedTokenPath) == Ok(r)
  {
    UserAuth(clientId, clientSecret, redirectUri, state,
             if scope.None? then "" else NormalizeScope(scope.value), cachedTokenPath)
  }

  /** The constructor's own default raises: `SpotifyUserAuth(id, secret, uri)`
      never builds an authenticator. */
  lemma DefaultScopeRaises(clientId: string, clientSecret: string, redirectUri: string)
    ensures NewUserAuth(clientId, clientSecret, redirectUri) == Err(AttributeError)
    ensures NewUserAuthIntended(clientId, clientSecret, redirectUri).scope == ""
  {
  }

  /** `refresh_access_token(refresh_token)` at wall-clock second `now`. */
  function RefreshAccessToken(auth: UserAuth, refreshToken: Value, reply: TokenReply, now: int): (r: Exchange<Token>)
    ensures r.sent == [] <==> !IsAscii(auth.clientId) || !IsAscii(auth.clientSecret)
    ensures r.sent != [] ==>
      r.sent == [Request(POST, TokenUrl, AuthorizationHeaders(auth.clientId, auth.clientSecret).value, [],
                         Form([("refresh_token", refreshToken), ("grant_type", Str("refresh_token"))]))]
    ensures r.sent != [] && IsErrorStatus(reply.status) ==> r.result == Err(HttpError(reply.status))
    ensures r.result.Ok? <==>
      && r.sent != [] && !IsErrorStatus(reply.status) && reply.body.Some?
      && "expires_in" in reply.body.value && AsInt(reply.body.value["expires_in"]).Ok?
    ensures r.result.Ok? ==>
      var body, t := reply.body.value, r.result.value;
      && t.Keys == body.Keys + {"expires_at", "refresh_token"}
      && t["expires_at"] == Int(AsInt(body["expires_in"]).value + now)
      && t["refresh_token"] == (if "refresh_token" in body then body["refresh_token"] else refreshToken)
      && forall k :: k in body && k != "expires_at" ==> t[k] == body[k]
  {
    var payload := [("refresh_token", refreshToken), ("grant_type", Str("refresh_token"))];
    var headers := AuthorizationHeaders(auth.clientId, auth.clientSecret);
    if headers.Err? then Exchange([], Err(headers.error))
    else
      var sent := [Request(POST, TokenUrl, headers.value, [], Form(payload))];
      if IsErrorStatus(reply.status) then Exchange(sent, Err(HttpError(reply.status)))
      else if reply.body.None? then Exchange(sent, Err(JsonDecodeError))
      else
        var stamped := AddCustomValuesToToken(reply.body.value, now);
        if stamped.Err? then Exchange(sent, Err(stamped.error))
        else if "refresh_token" !in stamped.value then
          Exchange(sent, Ok(stamped.value["refresh_token" := refreshToken]))
        else Exchange(sent, Ok(stamped.value))
  }

  /** The content of the token cache file: a decoded JSON document, or
      text `json.loads` rejects. */
  datatype CacheFile = Parsed(document: Value) | Unparsable

  /** `'scope' in token` for whatever `json.loads` returned: a key test on a
      dict, an element test on a list, a substring test on a string; any
      other value is not iterable and raises `TypeError`. */
  function HasScope(document: Value): (r: Result<bool>)
    ensures r.Err? <==> document.Null? || document.Bool? || document.Int?
    ensures r.Err? ==> r.error == TypeError
    ensures document.Object? ==> r == Ok("scope" in Keys(document.members))
    ensures document.Array? ==> r == Ok(Str("scope") in document.items)
    ensures document.Str? ==> r == Ok(Words.Contains(document.s, "scope"))
  {
    match document
    case Object(ms) => Ok("scope" in ObjectOf(ms))
    case Array(items) => Ok(Str("scope") in items)
    case Str(t) => Ok(Words.Contains(t, "scope"))
    case _ => Err(TypeError)
  }

  /** `get_cached_token()`, with the cache file given as its content
      (`None` when nothing exists at the path) and the refresh reply as a
      parameter. `os.path.exists(None)` raises `TypeError`, so an
      authenticator without a cache path always raises. A list or string
      document that passes the `'scope'` test raises `TypeError` at
      `token['expires_at']`. The expiry check reads the clock as `now`; a
      refreshed reply is stamped at the later reading `stampedAt`. The
      refreshed token is returned, not written back. */
  function GetCachedToken(auth: UserAuth, file: Option<CacheFile>, now: int, reply: TokenReply, stampedAt: int): (r: Exchange<Option<Token>>)
    ensures auth.cachedTokenPath.None? ==> r == Exchange([], Err(TypeError))
    ensures auth.cachedTokenPath.Some? && file.None? ==> r == Exchange([], Ok(None))
    ensures auth.cachedTokenPath.Some? && file == Some(Unparsable) ==> r == Exchange([], Err(JsonDecodeError))
    ensures auth.cachedTokenPath.Some? && file.Some? && file.value.Parsed? && !file.value.document.Object? ==>
      && r.sent == []
      && (r.result.Ok? <==> HasScope(file.value.document) == Ok(false))
      && (r.result.Ok? ==> r.result.value == None)
      && (r.result.Err? ==> r.result.error == TypeError)
    ensures auth.cachedTokenPath.Some? && file.Some? && file.value.Parsed? && file.value.document.Object? ==>
      var t := ObjectOf(file.value.document.members);
      && ("scope" !in t ==> r == Exchange([], Ok(None)))
      && ("scope" in t && IsTokenExpired(t, now) == Ok(false) ==> r == Exchange([], Ok(Some(t))))
      && ("scope" in t && IsTokenExpired(t, now).Err? ==> r == Exchange([], Err(IsTokenExpired(t, now).error)))
      && ("scope" in t && IsTokenExpired(t, now) == Ok(true) ==>
           if "refresh_token" !in t then r == Exchange([], Err(KeyError("refresh_token")))
           else
             var refreshed := RefreshAccessToken(auth, t["refresh_token"], reply, stampedAt);
             r == Exchange(refreshed.sent,
                           if refreshed.result.Ok? then Ok(Some(refreshed.result.value))
                           else Err(refreshed.result.error)))
    ensures r.sent != [] ==>
      auth.cachedTokenPath.Some? && file.Some? && file.value.Parsed? && file.value.document.Object?
  {
    if auth.cachedTokenPath.None? then Exchange([], Err(TypeError))
    else match file
      case None => Exchange([], Ok(None))
      case Some(Unparsable) => Exchange([], Err(JsonDecodeError))
      case Some(Parsed(document)) =>
        var hasScope := HasScope(document);
        if hasScope.Err? then Exchange([], Err(hasScope.error))
        else if !hasScope.value then Exchange([], Ok(None))
        else if !document.Object? then Exchange([], Err(TypeError))
        else
          var t := ObjectOf(document.members);
          var expired := IsTokenExpired(t, now);
          if expired.Err? then Exchange([], Err(expired.error))
          else if !expired.value then Exchange([], Ok(Some(t)))
          else if "refresh_token" !in t then Exchange([], Err(KeyError("refresh_token")))
          else
            var refreshed := RefreshAccessToken(auth, t["refresh_token"], reply, stampedAt);
            if refreshed.result.Err? then Exchange(refreshed.sent, Err(refreshed.result.error))
            else Exchange(refreshed.sent, Ok(Some(refreshed.result.value)))
  }

  /** What `get_cached_token` returns is usable at `now`: a stored token is
      returned only while unexpired, and a refreshed one is unexpired when
      the token endpoint grants at least the 60-second margin and the
      clock has not run backwards between the two readings. */
  lemma GetCachedTokenUnexpired(auth: UserAuth, file: Option<CacheFile>, now: int, reply: TokenReply, stampedAt: int)
    requires reply.body.Some? && "expires_in" in reply.body.value && AsInt(reply.body.value["expires_in"]).Ok?
             ==> AsInt(reply.body.value["expires_in"]).value >= DefaultExpiryOffset
    requires now <= stampedAt
    requires GetCachedToken(auth, file, now, reply, stampedAt).result.Ok?
    requires GetCachedToken(auth, file, now, reply, stampedAt).result.value.Some?
    ensures IsTokenExpired(GetCachedToken(auth, file, now, reply, stampedAt).result.value.value, now) == Ok(false)
  {
  }

  /** The default `cached_token_path=None` makes `get_cached_token` raise
      `TypeError` whatever is on disk, while the corrected reading treats a
      missing path as no cache. */
  lemma DefaultCachePathRaises(clientId: string, clientSecret: string, redirectUri: string, scope: string,
                               file: Option<CacheFile>, now: int, reply: TokenReply, stampedAt: int)
    ensures var auth := NewUserAuth(clientId, clientSecret, redirectUri, None, Some(scope));
            && auth.Ok?
            && GetCachedToken(auth.value, file, now, reply, stampedAt) == Exchange([], Err(TypeError))
            && GetCachedTokenIntended(auth.value, file, now, reply, stampedAt) == Exchange([], Ok(None))
  {
  }

  /** The intended `get_cached_token`: without a cache path there is no
      cached token; with one it behaves as written. */
  function GetCachedTokenIntended(auth: UserAuth, file: Option<CacheFile>, now: int, reply: TokenReply, stampedAt: int): (r: Exchange<Option<Token>>)
    ensures auth.cachedTokenPath.None? ==> r == Exchange([], Ok(None))
    ensures auth.cachedTokenPath.Some? ==> r == GetCachedToken(auth, file, now, reply, stampedAt)
    ensures r.result.Err? ==> auth.cachedTokenPath.Some?
  {
    if auth.cachedTokenPath.None? then Exchange([], Ok(None)) else GetCachedToken(auth, file, now, reply, stampedAt)
  }

  /** The fixed part of the authorize query. */
  function AuthorizeBase(auth: UserAuth): Payload {
    Dict3("client_id", Str(auth.clientId), "response_type", Str("code"), "redirect_uri", Str(auth.redirectUri))
  }

  /** The query of `get_authorize_url(state, show_dialog)`. The instance's
      stored `state` is looked up but never sent. */
  function AuthorizePayload(auth: UserAuth, state: Option<string> := None, showDialog: bool := false): (p: Payload)
    ensures Lookup(p, "client_id") == Some(Str(auth.clientId))
    ensures Lookup(p, "response_type") == Some(Str("code"))
    ensures Lookup(p, "redirect_uri") == Some(Str(auth.redirectUri))
    ensures Lookup(p, "scope") == (if auth.scope != "" then Some(Str(auth.scope)) else None)
    ensures Lookup(p, "state") == (if state.Some? then Some(Str(state.value)) else None)
    ensures Lookup(p, "show_dialog") == (if showDialog then Some(Bool(true)) else None)
  {
    var base := AuthorizeBase(auth);
    var withScope := PutIf(base, auth.scope != "", "scope", Str(auth.scope));
    var withState := PutIf(withScope, state.Some?, "state", Str(if state.Some? then state.value else ""));
    PutIf(withState, showDialog, "show_dialog", Bool(true))
  }

  /** The query's keys, in the order they are sent: the three fixed keys
      first, then whichever of `scope`, `state` and `show_dialog` apply. */
  lemma AuthorizePayloadKeys(auth: UserAuth, state: Option<string>, showDialog: bool)
    ensures Keys(AuthorizePayload(auth, state, showDialog))
         == ["client_id", "response_type", "redirect_uri"]
            + (if auth.scope != "" then ["scope"] else [])
            + (if state.Some? then ["state"] else [])
            + (if showDialog then ["show_dialog"] else [])
  {
    var base := AuthorizeBase(auth);
    var ks := ["client_id", "response_type", "redirect_uri"];
    var withScope := PutIf(base, auth.scope != "", "scope", Str(auth.scope));
    PutIfKeys(base, auth.scope != "", "scope", Str(auth.scope));
    var ks1 := ks + (if auth.scope != "" then ["scope"] else []);
    assert "state" !in ks1;
    var withState := PutIf(withScope, state.Some?, "state", Str(if state.Some? then state.value else ""));
    PutIfKeys(withScope, state.Some?, "state", Str(if state.Some? then state.value else ""));
    var ks2 := ks1 + (if state.Some? then ["state"] else []);
    assert "show_dialog" !in ks2;
    PutIfKeys(withState, showDialog, "show_dialog", Bool(true));
  }

  /** Every value in the query is a scalar `urlencode` writes with `str`. */
  lemma AuthorizePayloadScalar(auth: UserAuth, state: Option<string>, showDialog: bool)
    ensures Encodable(AuthorizePayload(auth, state, showDialog))
  {
    var base := AuthorizeBase(auth);
    var withScope := PutIf(base, auth.scope != "", "scope", Str(auth.scope));
    if auth.scope != "" { PutValues(base, "scope", Str(auth.scope), Scalar); }
    var withState := PutIf(withScope, state.Some?, "state", Str(if state.Some? then state.value else ""));
    if state.Some? { PutValues(withScope, "state", Str(state.value), Scalar); }
    if showDialog { PutValues(withState, "show_dialog", Bool(true), Scalar); }
  }

  /** Two authenticators that differ only in their stored `state` build the
      same query. */
  lemma StoredStateNeverSent(auth: UserAuth, stored: Option<string>, state: Option<string>, showDialog: bool)
    ensures AuthorizePayload(auth.(state := stored), state, showDialog) == AuthorizePayload(auth, state, showDialog)
  {
  }

  /** The discrepancy: an authenticator built with a CSRF `state` sends no
      `state` when the call gives none. */
  lemma StoredStateDiscarded(auth: UserAuth)
    requires auth.state.Some?
    ensures Lookup(AuthorizePayload(auth), "state") == None
    ensures Lookup(AuthorizePayloadIntended(auth), "state") == Some(Str(auth.state.value))
  {
  }

  /** The intended query: an explicit `state` wins, the stored one is the
      fallback. */
  function AuthorizePayloadIntended(auth: UserAuth, state: Option<string> := None, showDialog: bool := false): (p: Payload)
    ensures Lookup(p, "state") ==
      (if state.Some? then Some(Str(state.value))
       else if auth.state.Some? then Some(Str(auth.state.value))
       else None)
    ensures Lookup(p, "scope") == (if auth.scope != "" then Some(Str(auth.scope)) else None)
    ensures Lookup(p, "show_dialog") == (if showDialog then Some(Bool(true)) else None)
  {
    AuthorizePayload(auth, if state.Some? then state else auth.state, showDialog)
  }

  /** `get_authorize_url(state, show_dialog)`: the authorize endpoint, '?',
      and the urlencoded query; the query decodes back to the payload. */
  function GetAuthorizeUrl(auth: UserAuth, state: Option<string> := None, showDialog: bool := false): (url: string)
    ensures |url| > |AuthorizeUrl|
    ensures url[..|AuthorizeUrl| + 1] == AuthorizeUrl + "?"
    ensures var p := AuthorizePayload(auth, state, showDialog);
            Encodable(p) && ParseQuery(url[|AuthorizeUrl| + 1..]) == Some(TextPairs(p))
  {
    var p := AuthorizePayload(auth, state, showDialog);
    AuthorizePayloadScalar(auth, state, showDialog);
    UrlEncodeRoundTrip(p);
    var url := AuthorizeUrl + "?" + UrlEncode(p);
    assert url[|AuthorizeUrl| + 1..] == UrlEncode(p);
    url
  }
}

=== FILE: base64.dfy ===
/** The Base64 encoding of section 4 of RFC 4648 (standard alphabet, '='
    padding), as Python's `base64.b64encode` produces it, with a strict
    decoder as its partner. */
module Base64 {
  import opened Wrappers

  type Sextet = x: int | 0 <= x < 64

  /** Table 1 of section 4 of RFC 4648: A-Z, a-z, 0-9, '+', '/'. */
  function Symbol(x: Sextet): (c: char)
    ensures c != '='
  {
    if x < 26 then ('A' as int + x) as char
    else if x < 52 then ('a' as int + (x - 26)) as char
    else if x < 62 then ('0' as int + (x - 52)) as char
    else if x == 62 then '+'
    else '/'
  }

  /** The inverse of `Symbol`; `None` for a character outside the alphabet. */
  function Value(c: char): (r: Option<Sextet>)
  {
    if 'A' <= c <= 'Z' then Some(c as int - 'A' as int)
    else if 'a' <= c <= 'z' then Some(c as int - 'a' as int + 26)
    else if '0' <= c <= '9' then Some(c as int - '0' as int + 52)
    else if c == '+' then Some(62)
    else if c == '/' then Some(63)
    else None
  }

  lemma ValueOfSymbol(x: Sextet)
    ensures Value(Symbol(x)) == Some(x)
  {
  }

  /** Three bytes as four symbols: the 24-bit group split into 6-bit pieces. */
  function EncodeGroup(a: Byte, b: Byte, c: Byte): string {
    [Symbol(a / 4), Symbol((a % 4) * 16 + b / 16), Symbol((b % 16) * 4 + c / 64), Symbol(c % 64)]
  }

  /** `base64.b64encode`: whole groups, then a final group padded with '='. */
  function Encode(bs: seq<Byte>): string
    decreases |bs|
  {
    if |bs| == 0 then ""
    else if |bs| == 1 then [Symbol(bs[0] / 4), Symbol((bs[0] % 4) * 16), '=', '=']
    else if |bs| == 2 then
      [Symbol(bs[0] / 4), Symbol((bs[0] % 4) * 16 + bs[1] / 16), Symbol((bs[1] % 16) * 4), '=']
    else EncodeGroup(bs[0], bs[1], bs[2]) + Encode(bs[3..])
  }

  /** Four symbols for every started group of three bytes. */
  lemma {:induction false} EncodeLength(bs: seq<Byte>)
    ensures |Encode(bs)| == 4 * ((|bs| + 2) / 3)
    decreases |bs|
  {
    if |bs| >= 3 {
      EncodeLength(bs[3..]);
      assert (|bs| + 2) / 3 == (|bs[3..]| + 2) / 3 + 1;
    }
  }

  /** Four sextets back to three bytes. */
  function DecodeGroup(w: Sextet, x: Sextet, y: Sextet, z: Sextet): seq<Byte> {
    [w * 4 + x / 16, (x % 16) * 16 + y / 4, (y % 4) * 64 + z]
  }

  /** A strict decoder: the length is a multiple of four, every character is
      in the alphabet, and '=' appears only as one or two final pad
      characters. */
  function Decode(s: string): (r: Option<seq<Byte>>)
    decreases |s|
  {
    if |s| == 0 then Some([])
    else if |s| < 4 then None
    else
      var v0, v1, v2, v3 := Value(s[0]), Value(s[1]), Value(s[2]), Value(s[3]);
      if v0.None? || v1.None? then None
      else if |s| == 4 && s[2] == '=' && s[3] == '=' then
        if v1.value % 16 == 0 then Some([v0.value * 4 + v1.value / 16]) else None
      else if |s| == 4 && v2.Some? && s[3] == '=' then
        if v2.value % 4 == 0 then Some([v0.value * 4 + v1.value / 16, (v1.value % 16) * 16 + v2.value / 4])
        else None
      else if v2.None? || v3.None? then None
      else
        var rest := Decode(s[4..]);
        if rest.None? then None
        else Some(DecodeGroup(v0.value, v1.value, v2.value, v3.value) + rest.value)
  }

  lemma GroupRoundTrip(a: Byte, b: Byte, c: Byte)
    ensures DecodeGroup(a / 4, (a % 4) * 16 + b / 16, (b % 16) * 4 + c / 64, c % 64) == [a, b, c]
  {
    var x, y := (a % 4) * 16 + b / 16, (b % 16) * 4 + c / 64;
    assert x / 16 == a % 4 && x % 16 == b / 16;
    assert y / 4 == b % 16 && y % 4 == c / 64;
  }

  lemma DecodeEncodeOne(a: Byte)
    ensures Decode(Encode([a])) == Some([a])
  {
    ValueOfSymbol(a / 4);
    ValueOfSymbol((a % 4) * 16);
    assert ((a % 4) * 16) % 16 == 0;
  }

  lemma DecodeEncodeTwo(a: Byte, b: Byte)
    ensures Decode(Encode([a, b])) == Some([a, b])
  {
    var w, x, y := a / 4, (a % 4) * 16 + b / 16, (b % 16) * 4;
    ValueOfSymbol(w);
    ValueOfSymbol(x);
    ValueOfSymbol(y);
    var e := Encode([a, b]);
    assert e == [Symbol(w), Symbol(x), Symbol(y), '='];
    assert x / 16 == a % 4 && x % 16 == b / 16 && y / 4 == b % 16 && y % 4 == 0;
    assert Decode(e) == Some([w * 4 + x / 16, (x % 16) * 16 + y / 4]);
  }

  /** A full (unpadded) group in front of `rest` decodes to its three
      bytes in front of whatever `rest` decodes to. */
  lemma DecodeFullGroup(w: Sextet, x: Sextet, y: Sextet, z: Sextet, rest: string)
    ensures var r := Decode([Symbol(w), Symbol(x), Symbol(y), Symbol(z)] + rest);
            Decode(rest).Some? ==> r == Some(DecodeGroup(w, x, y, z) + Decode(rest).value)
  {
    var s := [Symbol(w), Symbol(x), Symbol(y), Symbol(z)] + rest;
    ValueOfSymbol(w);
    ValueOfSymbol(x);
    ValueOfSymbol(y);
    ValueOfSymbol(z);
    assert s[4..] == rest;
  }

  lemma EncodeUnfold(bs: seq<Byte>)
    requires |bs| >= 3
    ensures Encode(bs) == EncodeGroup(bs[0], bs[1], bs[2]) + Encode(bs[3..])
  {
  }

  /** An encoded group in front of any decodable text decodes to its three
      bytes in front of that text's bytes. */
  lemma DecodeGroupThen(a: Byte, b: Byte, c: Byte, rest: string, tail: seq<Byte>)
    requires Decode(rest) == Some(tail)
    ensures Decode(EncodeGroup(a, b, c) + rest) == Some([a, b, c] + tail)
  {
    var w, x, y, z := a / 4, (a % 4) * 16 + b / 16, (b % 16) * 4 + c / 64, c % 64;
    DecodeFullGroup(w, x, y, z, rest);
    GroupRoundTrip(a, b, c);
  }

  lemma DecodeUnfoldedEncode(bs: seq<Byte>)
    requires |bs| >= 3
    requires Decode(Encode(bs[3..])) == Some(bs[3..])
    ensures Decode(EncodeGroup(bs[0], bs[1], bs[2]) + Encode(bs[3..])) == Some([bs[0], bs[1], bs[2]] + bs[3..])
  {
    DecodeGroupThen(bs[0], bs[1], bs[2], Encode(bs[3..]), bs[3..]);
  }

  lemma FirstThree(bs: seq<Byte>)
    requires |bs| >= 3
    ensures [bs[0], bs[1], bs[2]] + bs[3..] == bs
  {
  }

  lemma DecodeOfEncodeUnfold(bs: seq<Byte>, r: Option<seq<Byte>>)
    requires |bs| >= 3
    requires Decode(EncodeGroup(bs[0], bs[1], bs[2]) + Encode(bs[3..])) == r
    ensures Decode(Encode(bs)) == r
  {
    EncodeUnfold(bs);
  }

  /** Decoding undoes encoding. */
  lemma {:induction false} DecodeEncode(bs: seq<Byte>)
    ensures Decode(Encode(bs)) == Some(bs)
    decreases |bs|
  {
    if |bs| == 1 {
      DecodeEncodeOne(bs[0]);
      assert bs == [bs[0]];
    } else if |bs| == 2 {
      DecodeEncodeTwo(bs[0], bs[1]);
      assert bs == [bs[0], bs[1]];
    } else if |bs| >= 3 {
      DecodeEncode(bs[3..]);
      DecodeUnfoldedEncode(bs);
      FirstThree(bs);
      DecodeOfEncodeUnfold(bs, Some(bs));
    }
  }

  lemma SymbolOfValue(c: char)
    requires Value(c).Some?
    ensures Symbol(Value(c).value) == c
  {
  }

  /** A full group decodes and re-encodes to itself. */
  lemma GroupEncodeDecode(w: Sextet, x: Sextet, y: Sextet, z: Sextet)
    ensures var g := DecodeGroup(w, x, y, z);
            EncodeGroup(g[0], g[1], g[2]) == [Symbol(w), Symbol(x), Symbol(y), Symbol(z)]
  {
    var g := DecodeGroup(w, x, y, z);
    assert g[0] / 4 == w && g[0] % 4 == x / 16;
    assert g[1] / 16 == x % 16 && g[1] % 16 == y / 4;
    assert g[2] / 64 == y % 4 && g[2] % 64 == z;
  }

  lemma EncodeDecodeTwoPads(s: string)
    requires |s| == 4 && s[2] == '=' && s[3] == '='
    requires Decode(s).Some?
    ensures Encode(Decode(s).value) == s
  {
    var v0, v1 := Value(s[0]).value, Value(s[1]).value;
    SymbolOfValue(s[0]);
    SymbolOfValue(s[1]);
    var b := (v0 as int) * 4 + v1 / 16;
    assert Decode(s).value == [b];
    assert b / 4 == v0 && (b % 4) * 16 == v1;
  }

  lemma EncodeDecodeOnePad(s: string)
    requires |s| == 4 && s[2] != '=' && s[3] == '='
    requires Decode(s).Some?
    ensures Encode(Decode(s).value) == s
  {
    var v0, v1, v2 := Value(s[0]).value, Value(s[1]).value, Value(s[2]).value;
    SymbolOfValue(s[0]);
    SymbolOfValue(s[1]);
    SymbolOfValue(s[2]);
    var b0, b1 := (v0 as int) * 4 + v1 / 16, (v1 as int % 16) * 16 + v2 / 4;
    assert Decode(s).value == [b0, b1];
    assert b0 / 4 == v0 && (b0 % 4) * 16 + b1 / 16 == v1 && (b1 % 16) * 4 == v2;
  }

  /** An accepted text that does not end after two or three symbols
      starts with a full group. */
  lemma DecodeLeadingGroup(s: string)
    requires |s| >= 4 && s[3] != '='
    requires Decode(s).Some?
    ensures Value(s[0]).Some? && Value(s[1]).Some? && Value(s[2]).Some? && Value(s[3]).Some?
    ensures Decode(s[4..]).Some?
    ensures Decode(s).value
         == DecodeGroup(Value(s[0]).value, Value(s[1]).value, Value(s[2]).value, Value(s[3]).value) + Decode(s[4..]).value
  {
  }

  /** Four symbols in front of `rest`, re-encoded from their group. */
  lemma EncodeGroupThen(c0: char, c1: char, c2: char, c3: char, rest: seq<Byte>)
    requires Value(c0).Some? && Value(c1).Some? && Value(c2).Some? && Value(c3).Some?
    ensures var g := DecodeGroup(Value(c0).value, Value(c1).value, Value(c2).value, Value(c3).value);
            Encode(g + rest) == [c0, c1, c2, c3] + Encode(rest)
  {
    var g := DecodeGroup(Value(c0).value, Value(c1).value, Value(c2).value, Value(c3).value);
    SymbolOfValue(c0);
    SymbolOfValue(c1);
    SymbolOfValue(c2);
    SymbolOfValue(c3);
    GroupEncodeDecode(Value(c0).value, Value(c1).value, Value(c2).value, Value(c3).value);
    assert (g + rest)[3..] == rest;
    EncodeUnfold(g + rest);
  }

  /** A leading full group followed by accepted text re-encodes to itself. */
  lemma EncodeDecodeFullGroup(s: string)
    requires |s| >= 4 && s[3] != '='
    requires Decode(s).Some?
    requires Encode(Decode(s[4..]).value) == s[4..]
    ensures Encode(Decode(s).value) == s
  {
    DecodeLeadingGroup(s);
    EncodeGroupThen(s[0], s[1], s[2], s[3], Decode(s[4..]).value);
    assert s == [s[0], s[1], s[2], s[3]] + s[4..];
  }

  /** Every text the decoder accepts is the encoding of what it decodes
      to, so no two texts decode to the same bytes. */
  lemma {:induction false} EncodeDecode(s: string)
    requires Decode(s).Some?
    ensures Encode(Decode(s).value) == s
    decreases |s|
  {
    if |s| > 0 {
      if |s| == 4 && s[2] == '=' && s[3] == '=' {
        EncodeDecodeTwoPads(s);
      } else if |s| == 4 && s[3] == '=' {
        EncodeDecodeOnePad(s);
      } else {
        EncodeDecode(s[4..]);
        EncodeDecodeFullGroup(s);
      }
    }
  }
}

=== FILE: client.dfy ===
/** The request builders of the `Spotify` client: the common `_api_call`
    rule (prefix, bearer header, status check, empty-body message) and the
    few endpoints whose bodies or parameters are computed rather than
    forwarded: track removal, reorder, replace, and the comma-joined id
    lists of the follow/save wrappers. */
module Client {
  import opened Wrappers
  import opened Json
  import opened Http
  import opened Words

  const ApiPrefix: string := "https://api.spotify.com/v1/"
  const TrackPrefix: string := "spotify:track:"

  // =====================================================================
  // _api_call
  // =====================================================================

  /** One `_api_call(method, url, request=..., params=..., data=...)`: the
      path below the prefix, the query, the body and the `request` label
      (`None` when the wrapper passes none). */
  datatype ApiCall = ApiCall(verb: Method, path: string, params: Payload, data: Body, request: Option<string>)

  /** What `_api_call` returns: the confirmation text for an empty reply,
      or the decoded JSON document. */
  datatype ApiResult = Message(text: string) | Data(document: Value)

  /** `f'{request}'` for the label: `None` prints as "None". */
  function LabelText(request: Option<string>): string {
    if request.Some? then request.value else "None"
  }

  /** `_api_call` with the reply given: the one request it sends, then
      `raise_for_status`, then either the confirmation message (empty
      content) or `response.json()`. `token` is the text of the access
      token the client holds. */
  function PerformApiCall(token: string, call: ApiCall, reply: ApiReply): (r: Exchange<ApiResult>)
    ensures |r.sent| == 1
    ensures var q := r.sent[0];
            && q.verb == call.verb && q.params == call.params && q.data == call.data
            && |q.url| == |ApiPrefix| + |call.path|
            && q.url[..|ApiPrefix|] == ApiPrefix && q.url[|ApiPrefix|..] == call.path
            && q.headers.Keys == {"Authorization"}
            && q.headers["Authorization"] == "Bearer " + token
    ensures IsErrorStatus(reply.status) ==> r.result == Err(HttpError(reply.status))
    ensures r.result.Err? <==> IsErrorStatus(reply.status) || reply.body.Malformed?
    ensures r.result.Ok? ==> (r.result.value.Message? <==> reply.body.Empty?)
    ensures r.result.Ok? && r.result.value.Message? ==>
      var t := r.result.value.text;
      && |t| == 12 + |LabelText(call.request)|
      && t[..8] == "REQUEST " && t[|t| - 4..] == " OK!"
      && t[8..|t| - 4] == LabelText(call.request)
    ensures r.result.Ok? && r.result.value.Data? ==> reply.body == Document(r.result.value.document)
  {
    var headers := map["Authorization" := "Bearer " + token];
    var sent := [Request(call.verb, ApiPrefix + call.path, headers, call.params, call.data)];
    if IsErrorStatus(reply.status) then Exchange(sent, Err(HttpError(reply.status)))
    else match reply.body
      case Empty => Exchange(sent, Ok(Message("REQUEST " + LabelText(call.request) + " OK!")))
      case Document(v) => Exchange(sent, Ok(Data(v)))
      case Malformed => Exchange(sent, Err(JsonDecodeError))
  }

  // =====================================================================
  // Track URIs
  // =====================================================================

  /** `f"spotify:track:{id}"`; reading the id back recovers it. */
  function TrackUri(id: string): (u: string)
    ensures TrackIdOf(u) == Some(id)
  {
    TrackPrefix + id
  }

  /** The id inside a track URI, if it has the track prefix. */
  function TrackIdOf(uri: string): Option<string> {
    if |uri| >= |TrackPrefix| && uri[..|TrackPrefix|] == TrackPrefix then Some(uri[|TrackPrefix|..]) else None
  }

  function Ints(ns: seq<int>): (vs: seq<Value>)
    ensures |vs| == |ns|
    ensures forall i :: 0 <= i < |ns| ==> vs[i] == Int(ns[i])
  {
    seq(|ns|, i requires 0 <= i < |ns| => Int(ns[i]))
  }

  // =====================================================================
  // remove_occurences_of_specific_tracks
  // =====================================================================

  /** A positional argument of the track-removal call: a plain track id,
      or a tuple `(id, position, ...)` naming occurrences. */
  datatype TrackArg = TrackId(id: string) | Occurrence(tid: string, positions: seq<int>)

  const TupleLabel: string := "remove_specific_occurrence_of_track"
  const PlainLabel: string := "remove_all_occurrences_of_specific_tracks"
  const SnapshotLabel: string := "remove_specific_occurence_of_track_in_specific_playlist_snapshot"

  /** `repr` of an occurrence tuple, `('id', 1, 2)` or `('id',)`, for a
      printable id without quotes or backslashes, which `repr` writes
      between single quotes with no escapes. */
  function TupleRepr(id: string, positions: seq<int>): string {
    var head := "('" + id + "'";
    if |positions| == 0 then head + ",)"
    else head + ", " + Join(seq(|positions|, i requires 0 <= i < |positions| => IntToString(positions[i])), ", ") + ")"
  }

  /** `f"{arg}"` of an argument. */
  function ArgText(a: TrackArg): string {
    match a
    case TrackId(id) => id
    case Occurrence(id, ps) => TupleRepr(id, ps)
  }

  /** A track entry `{"uri": ..., "positions": ...}`, or `{"uri": ...}`
      when `positions` is absent; no other key. */
  function TrackEntry(uri: string, positions: Option<Value>): (e: Value)
    ensures e.Object?
    ensures Keys(e.members) == ["uri"] + (if positions.Some? then ["positions"] else [])
    ensures Lookup(e.members, "uri") == Some(Str(uri))
    ensures Lookup(e.members, "positions") == positions
  {
    var withUri := Put([], "uri", Str(uri));
    PutKeys([], "uri", Str(uri));
    var v := if positions.Some? then positions.value else Null;
    PutIfKeys(withUri, positions.Some?, "positions", v);
    Object(PutIf(withUri, positions.Some?, "positions", v))
  }

  /** The track an entry names, with its positions if it lists any; `None`
      unless the entry is an object with exactly the keys `uri` and,
      optionally, `positions`, in that order. */
  function EntryTrack(e: Value): Option<(string, Option<Value>)> {
    if !e.Object? then None
    else if Keys(e.members) != ["uri"] + (if Lookup(e.members, "positions").Some? then ["positions"] else []) then None
    else match Lookup(e.members, "uri")
      case Some(Str(u)) =>
        if TrackIdOf(u).Some? then Some((TrackIdOf(u).value, Lookup(e.members, "positions"))) else None
      case _ => None
  }

  /** The tuple-branch entry of one argument: `arg[0]` and `arg[1:]`. For a
      string argument these are its first character and the rest, and an
      empty string raises `IndexError`. */
  function OccurrenceEntry(a: TrackArg): (r: Result<Value>)
    ensures r.Err? <==> a == TrackId("")
    ensures r.Err? ==> r.error == IndexError
    ensures a.Occurrence? ==> EntryTrack(r.value) == Some((a.tid, Some(Array(Ints(a.positions)))))
    ensures a.TrackId? && r.Ok? ==> EntryTrack(r.value) == Some((a.id[..1], Some(Str(a.id[1..]))))
  {
    match a
    case Occurrence(id, ps) => Ok(TrackEntry(TrackUri(id), Some(Array(Ints(ps)))))
    case TrackId(s) =>
      if |s| == 0 then Err(IndexError)
      else Ok(TrackEntry(TrackUri(s[..1]), Some(Str(s[1..]))))
  }

  /** The tuple-branch list comprehension over all arguments. */
  function OccurrenceEntries(args: seq<TrackArg>): (r: Result<seq<Value>>)
    ensures r.Ok? <==> forall i :: 0 <= i < |args| ==> args[i] != TrackId("")
    ensures r.Err? ==> r.error == IndexError
    ensures r.Ok? ==> |r.value| == |args| && forall i :: 0 <= i < |args| ==> Ok(r.value[i]) == OccurrenceEntry(args[i])
    decreases |args|
  {
    if |args| == 0 then Ok([])
    else
      var e :- OccurrenceEntry(args[0]);
      var es :- OccurrenceEntries(args[1..]);
      assert forall i :: 1 <= i < |args| ==> args[i] == args[1..][i - 1];
      Ok([e] + es)
  }

  /** The plain-branch comprehension: one `{"uri": ...}` per argument. */
  function PlainEntries(args: seq<TrackArg>): (es: seq<Value>)
    ensures |es| == |args|
    ensures forall i :: 0 <= i < |args| ==> EntryTrack(es[i]) == Some((ArgText(args[i]), None))
  {
    seq(|args|, i requires 0 <= i < |args| => TrackEntry(TrackUri(ArgText(args[i])), None))
  }

  /** `remove_occurences_of_specific_tracks(playlist_id, *args,
      snapshot_id)`: the DELETE call it makes, or the error it raises
      before making one. */
  function RemoveTracks(playlistId: string, args: seq<TrackArg>, snapshot: Option<string> := None): (r: Result<ApiCall>)
    ensures |args| == 0 ==> r == Err(IndexError)
    ensures r.Ok? <==> |args| > 0 && (args[0].TrackId? || forall i :: 0 <= i < |args| ==> args[i] != TrackId(""))
    ensures r.Err? ==> r.error == IndexError
    ensures r.Ok? ==>
      var c := r.value;
      && c.verb == DELETE && c.path == "playlists/" + playlistId + "/tracks" && c.params == []
      && c.request == Some(if Truthy(snapshot) then SnapshotLabel
                         else if args[0].Occurrence? then TupleLabel else PlainLabel)
      && c.data.JsonText? && c.data.document.Object?
      && var body := c.data.document.members;
      && Keys(body) == ["tracks"] + (if Truthy(snapshot) then ["snapshot_id"] else [])
      && Lookup(body, "snapshot_id") == (if Truthy(snapshot) then Some(Str(snapshot.value)) else None)
      && Lookup(body, "tracks").Some? && Lookup(body, "tracks").value.Array?
      && var es := Lookup(body, "tracks").value.items;
      && |es| == |args|
      && forall i :: 0 <= i < |args| ==>
           EntryTrack(es[i]) ==
             if args[0].TrackId? then Some((ArgText(args[i]), None))
             else match args[i]
               case Occurrence(id, ps) => Some((id, Some(Array(Ints(ps)))))
               case TrackId(s) => Some((s[..1], Some(Str(s[1..]))))
  {
    if |args| == 0 then Err(IndexError)
    else
      var tracks :- if args[0].Occurrence? then OccurrenceEntries(args) else Ok(PlainEntries(args));
      var request := if args[0].Occurrence? then TupleLabel else PlainLabel;
      var body := Put([], "tracks", Array(tracks));
      PutKeys([], "tracks", Array(tracks));
      var snap := if snapshot.Some? then snapshot.value else "";
      var withSnapshot := PutIf(body, Truthy(snapshot), "snapshot_id", Str(snap));
      PutIfKeys(body, Truthy(snapshot), "snapshot_id", Str(snap));
      Ok(ApiCall(DELETE, "playlists/" + playlistId + "/tracks", [],
                 JsonText(Object(withSnapshot)), Some(if Truthy(snapshot) then SnapshotLabel else request)))
  }

  /** The `len(args) == 1` form of `remove_occurences_of_specific_tracks`
      builds the same list as the comprehension does for one argument. */
  function SinglePlainEntries(a: TrackArg): seq<Value> {
    [TrackEntry(TrackUri(ArgText(a)), None)]
  }

  lemma SingleArgumentSameShape(a: TrackArg)
    ensures SinglePlainEntries(a) == PlainEntries([a])
  {
  }

  // =====================================================================
  // reorder_playlist_tracks / replace_playlist_tracks
  // =====================================================================

  /** `{"range_start": ..., "insert_before": ..., "range_length": ...}`. */
  function ReorderBase(rangeStart: Value, insertBefore: Value, rangeLength: Value): (p: Payload)
    ensures Keys(p) == ["range_start", "insert_before", "range_length"]
    ensures Lookup(p, "range_start") == Some(rangeStart)
    ensures Lookup(p, "insert_before") == Some(insertBefore)
    ensures Lookup(p, "range_length") == Some(rangeLength)
    ensures Lookup(p, "snapshot_id") == None
  {
    Dict3("range_start", rangeStart, "insert_before", insertBefore, "range_length", rangeLength)
  }

  /** `reorder_playlist_tracks(playlist_id, range_start, insert_before,
      range_length=1, snapshot_id=None)`. */
  function ReorderTracks(playlistId: string, rangeStart: Value, insertBefore: Value,
                         rangeLength: Value := Int(1), snapshot: Option<string> := None): (c: ApiCall)
    ensures c.verb == PUT && c.path == "playlists/" + playlistId + "/tracks" && c.params == []
    ensures c.request == Some("reorder_playlist_tracks")
    ensures c.data.JsonText? && c.data.document.Object?
    ensures var body := c.data.document.members;
            && Keys(body) == ["range_start", "insert_before", "range_length"]
                             + (if Truthy(snapshot) then ["snapshot_id"] else [])
            && Lookup(body, "range_start") == Some(rangeStart)
            && Lookup(body, "insert_before") == Some(insertBefore)
            && Lookup(body, "range_length") == Some(rangeLength)
            && Lookup(body, "snapshot_id") == (if Truthy(snapshot) then Some(Str(snapshot.value)) else None)
  {
    var body := ReorderBase(rangeStart, insertBefore, rangeLength);
    var snap := if snapshot.Some? then snapshot.value else "";
    PutIfKeys(body, Truthy(snapshot), "snapshot_id", Str(snap));
    var withSnapshot := PutIf(body, Truthy(snapshot), "snapshot_id", Str(snap));
    ApiCall(PUT, "playlists/" + playlistId + "/tracks", [], JsonText(Object(withSnapshot)), Some("reorder_playlist_tracks"))
  }

  /** `replace_playlist_tracks(playlist_id, *args)`: the body's `uris` name
      the given ids, in order. */
  function ReplaceTracks(playlistId: string, ids: seq<string>): (c: ApiCall)
    ensures c.verb == PUT && c.path == "playlists/" + playlistId + "/tracks" && c.params == []
    ensures c.request == Some("replace_playlist_tracks")
    ensures c.data.JsonText? && c.data.document.Object?
    ensures var body := c.data.document.members;
            && Keys(body) == ["uris"]
            && Lookup(body, "uris").Some? && Lookup(body, "uris").value.Array?
            && var us := Lookup(body, "uris").value.items;
            && |us| == |ids|
            && forall i :: 0 <= i < |ids| ==> us[i].Str? && TrackIdOf(us[i].s) == Some(ids[i])
  {
    var uris := seq(|ids|, i requires 0 <= i < |ids| => Str(TrackUri(ids[i])));
    PutKeys([], "uris", Array(uris));
    ApiCall(PUT, "playlists/" + playlistId + "/tracks", [], JsonText(Object(Put([], "uris", Array(uris)))),
            Some("replace_playlist_tracks"))
  }

  // =====================================================================
  // The comma-joined id wrappers
  // =====================================================================

  /** The wrappers that send `','.join(ids)`. */
  datatype IdsEndpoint =
    | FollowArtists | FollowUsers | UnfollowArtists | UnfollowUsers
    | RemoveSavedAlbums | RemoveSavedTracks | SaveAlbums | SaveTracks

  /** The `type` parameter of the follow endpoints, if the wrapper sends one. */
  function FollowType(e: IdsEndpoint): Option<string> {
    match e
    case FollowArtists => Some("artist")
    case UnfollowArtists => Some("artist")
    case FollowUsers => Some("user")
    case UnfollowUsers => Some("user")
    case _ => None
  }

  function IdsPath(e: IdsEndpoint): string {
    match e
    case RemoveSavedAlbums => "me/albums"
    case SaveAlbums => "me/albums"
    case RemoveSavedTracks => "me/tracks"
    case SaveTracks => "me/tracks"
    case _ => "me/following"
  }

  function IdsVerb(e: IdsEndpoint): Method {
    match e
    case FollowArtists => PUT
    case FollowUsers => PUT
    case SaveAlbums => PUT
    case SaveTracks => PUT
    case _ => DELETE
  }

  function IdsLabel(e: IdsEndpoint): string {
    match e
    case FollowArtists => "follow_artist"
    case FollowUsers => "follow_user"
    case UnfollowArtists => "unfollow_artist"
    case UnfollowUsers => "unfollow_user"
    case RemoveSavedAlbums => "remove_user_saved_albums"
    case RemoveSavedTracks => "remove_user_saved_tracks"
    case SaveAlbums => "save_albums_for_current_user"
    case SaveTracks => "save_tracks_for_current_user"
  }

  /** `{'type': t, 'ids': joined}`. */
  function TypeThenIds(t: string, joined: Value): (p: Payload)
    ensures Keys(p) == ["type", "ids"]
    ensures Lookup(p, "type") == Some(Str(t)) && Lookup(p, "ids") == Some(joined)
  {
    var p0 := Put([], "type", Str(t));
    PutKeys([], "type", Str(t));
    PutKeys(p0, "ids", joined);
    Put(p0, "ids", joined)
  }

  /** `{'ids': joined, 'type': t}`. */
  function IdsThenType(t: string, joined: Value): (p: Payload)
    ensures Keys(p) == ["ids", "type"]
    ensures Lookup(p, "type") == Some(Str(t)) && Lookup(p, "ids") == Some(joined)
  {
    var p0 := Put([], "ids", joined);
    PutKeys([], "ids", joined);
    PutKeys(p0, "type", Str(t));
    Put(p0, "type", Str(t))
  }

  /** `','.join(ids)` split on ',' gives the ids back when none holds a
      comma; the empty list is the exception, since `''.split(',')` is `['']`. */
  lemma CommaJoinRoundTrip(ids: seq<string>)
    requires |ids| >= 1
    requires forall i :: 0 <= i < |ids| ==> Free(ids[i], ',')
    ensures SplitOn(Join(ids, ","), ',') == ids
  {
    SplitOnJoin(ids, ',');
  }

  /** The call one of the wrappers makes for `ids`. The follow wrappers put
      `type` before `ids`, the unfollow wrappers after it. For ids free of
      commas and at least one of them, splitting the sent text on ','
      gives the list back. */
  function IdsCall(e: IdsEndpoint, ids: seq<string>): (c: ApiCall)
    ensures c.verb == IdsVerb(e) && c.path == IdsPath(e) && c.data == NoBody
    ensures c.request == Some(IdsLabel(e))
    ensures Keys(c.params) ==
      match e
      case FollowArtists => ["type", "ids"]
      case FollowUsers => ["type", "ids"]
      case UnfollowArtists => ["ids", "type"]
      case UnfollowUsers => ["ids", "type"]
      case _ => ["ids"]
    ensures Lookup(c.params, "type") == (if FollowType(e).Some? then Some(Str(FollowType(e).value)) else None)
    ensures Lookup(c.params, "ids").Some? && Lookup(c.params, "ids").value.Str?
    ensures |ids| == 0 ==> Lookup(c.params, "ids") == Some(Str(""))
    ensures |ids| >= 1 && (forall i :: 0 <= i < |ids| ==> Free(ids[i], ',')) ==>
      SplitOn(Lookup(c.params, "ids").value.s, ',') == ids
  {
    var joined := Str(Join(ids, ","));
    assert |ids| >= 1 && (forall i :: 0 <= i < |ids| ==> Free(ids[i], ',')) ==> SplitOn(joined.s, ',') == ids by {
      if |ids| >= 1 && (forall i :: 0 <= i < |ids| ==> Free(ids[i], ',')) {
        CommaJoinRoundTrip(ids);
      }
    }
    var params :=
      match e
      case FollowArtists | FollowUsers => TypeThenIds(FollowType(e).value, joined)
      case UnfollowArtists | UnfollowUsers => IdsThenType(FollowType(e).value, joined)
      case _ => Put([], "ids", joined);
    PutKeys([], "ids", joined);
    ApiCall(IdsVerb(e), IdsPath(e), params, NoBody, Some(IdsLabel(e)))
  }
}

=== FILE: http.dfy ===
/** The HTTP traffic of the library as values: each request the code would
    send, and each reply as the input the model is given instead of a
    network answer. */
module Http {
  import opened Wrappers
  import opened Json

  datatype Method = GET | POST | PUT | DELETE

  /** The `data=` argument of a `requests` call: none, a form-encoded dict,
      or the `json.dumps` text of a JSON document. */
  datatype Body = NoBody | Form(fields: Payload) | JsonText(document: Value)

  datatype Request = Request(
    verb: Method,
    url: string,
    headers: map<string, string>,
    params: Payload,
    data: Body)

  /** A reply of the token endpoint: its status and its decoded body,
      `None` when the body is not a JSON object. */
  datatype TokenReply = TokenReply(status: int, body: Option<Token>)

  /** The body of a Web API reply: empty, a JSON document, or bytes that do
      not decode as JSON. */
  datatype ApiBody = Empty | Document(value: Value) | Malformed
  datatype ApiReply = ApiReply(status: int, body: ApiBody)

  /** What a call did: the requests it sent, in order, and its outcome. */
  datatype Exchange<T> = Exchange(sent: seq<Request>, result: Result<T>)

  /** The statuses `Response.raise_for_status()` raises on: client and
      server errors. Informational and redirect statuses pass. */
  predicate IsErrorStatus(status: int) {
    400 <= status < 600
  }
}

=== FILE: json.dfy ===
/** JSON values as Python's `json` module produces and consumes them. */
module Json {
  import opened Wrappers

  /** A decoded JSON value. Objects keep their members in insertion order,
      as a Python dict does and as `json.dumps` writes them. */
  datatype Value =
    | Null
    | Bool(b: bool)
    | Int(i: int)
    | Str(s: string)
    | Array(items: seq<Value>)
    | Object(members: seq<(string, Value)>)

  /** A token record: the decoded JSON object of a token-endpoint reply,
      later stamped with `expires_at`. */
  type Token = map<string, Value>

  /** An ordered key/value payload (a Python dict literal). */
  type Payload = seq<(string, Value)>

  /** The keys of a payload, in order. */
  function Keys(p: Payload): (ks: seq<string>)
    ensures |ks| == |p|
    ensures forall i :: 0 <= i < |p| ==> ks[i] == p[i].0
  {
    if |p| == 0 then [] else [p[0].0] + Keys(p[1..])
  }

  /** The value of the first member named `k`, as a dict lookup sees it. */
  function Lookup(p: Payload, k: string): Option<Value>
  {
    if |p| == 0 then None
    else if p[0].0 == k then Some(p[0].1)
    else Lookup(p[1..], k)
  }

  /** The dict `json.loads` builds from an object's members: one entry per
      distinct key, a repeated key keeping its last value. */
  function ObjectOf(members: Payload): (t: Token)
    ensures forall k :: k in t <==> k in Keys(members)
    ensures forall i :: 0 <= i < |members| && LastOfKey(members, i) ==> t[members[i].0] == members[i].1
    decreases |members|
  {
    if |members| == 0 then map[]
    else
      var rest := ObjectOf(members[1..]);
      assert forall i :: 1 <= i < |members| && LastOfKey(members, i) ==> LastOfKey(members[1..], i - 1);
      if members[0].0 in rest then
        assert !LastOfKey(members, 0) by {
          var j :| 0 <= j < |members[1..]| && Keys(members[1..])[j] == members[0].0;
          assert members[j + 1].0 == members[0].0;
        }
        rest
      else rest[members[0].0 := members[0].1]
  }

  /** No member after the `i`-th has its key. */
  predicate LastOfKey(members: Payload, i: int)
    requires 0 <= i < |members|
  {
    forall j :: i < j < |members| ==> members[j].0 != members[i].0
  }

  /** `d[k] = v` on a dict: a new key goes last, an existing key keeps its
      place and takes the new value. */
  function Put(p: Payload, k: string, v: Value): (r: Payload)
    ensures Lookup(r, k) == Some(v)
    ensures forall k' :: k' != k ==> Lookup(r, k') == Lookup(p, k')
    decreases |p|
  {
    if |p| == 0 then [(k, v)]
    else if p[0].0 == k then [(k, v)] + p[1..]
    else [p[0]] + Put(p[1..], k, v)
  }

  /** `if c: d[k] = v`. */
  function PutIf(p: Payload, c: bool, k: string, v: Value): (r: Payload)
    ensures Lookup(r, k) == if c then Some(v) else Lookup(p, k)
    ensures forall k' :: k' != k ==> Lookup(r, k') == Lookup(p, k')
  {
    if c then Put(p, k, v) else p
  }

  lemma {:induction false} PutKeys(p: Payload, k: string, v: Value)
    ensures Keys(Put(p, k, v)) == if k in Keys(p) then Keys(p) else Keys(p) + [k]
    decreases |p|
  {
    if |p| > 0 && p[0].0 != k {
      PutKeys(p[1..], k, v);
      assert Keys(p) == [p[0].0] + Keys(p[1..]);
    }
  }

  /** The dict display `{k0: v0, k1: v1, k2: v2}` with three distinct keys:
      the keys in display order, each bound to its value. */
  function Dict3(k0: string, v0: Value, k1: string, v1: Value, k2: string, v2: Value): (p: Payload)
    requires k0 != k1 && k0 != k2 && k1 != k2
    ensures Keys(p) == [k0, k1, k2]
    ensures Lookup(p, k0) == Some(v0) && Lookup(p, k1) == Some(v1) && Lookup(p, k2) == Some(v2)
    ensures forall k :: k != k0 && k != k1 && k != k2 ==> Lookup(p, k) == None
  {
    var p := [(k0, v0), (k1, v1), (k2, v2)];
    assert p[1..][1..] == [(k2, v2)];
    assert p[1..][1..][1..] == [];
    assert Keys(p) == [k0] + Keys(p[1..]);
    assert Keys(p[1..]) == [k1] + Keys(p[1..][1..]);
    assert Lookup(p[1..], k2) == Lookup(p[1..][1..], k2) == Some(v2);
    forall k | k != k0 && k != k1 && k != k2
      ensures Lookup(p, k) == None
    {
      assert Lookup(p[1..][1..], k) == Lookup(p[1..][1..][1..], k) == None;
    }
    p
  }

  /** `if c: d[k] = v` for a key not yet present appends `k` when `c` holds. */
  lemma PutIfKeys(p: Payload, c: bool, k: string, v: Value)
    requires k !in Keys(p)
    ensures Keys(PutIf(p, c, k, v)) == Keys(p) + (if c then [k] else [])
  {
    if c { PutKeys(p, k, v); }
  }

  lemma {:induction false} PutValues(p: Payload, k: string, v: Value, P: Value -> bool)
    requires forall i :: 0 <= i < |p| ==> P(p[i].1)
    requires P(v)
    ensures forall i :: 0 <= i < |Put(p, k, v)| ==> P(Put(p, k, v)[i].1)
    decreases |p|
  {
    if |p| > 0 && p[0].0 != k {
      PutValues(p[1..], k, v, P);
    }
  }

  /** The integer a Python arithmetic operator sees in a JSON value:
      `bool` is a subclass of `int`, every other non-number raises. */
  function AsInt(v: Value): (r: Result<int>)
    ensures r.Ok? <==> v.Int? || v.Bool?
    ensures v.Int? ==> r == Ok(v.i)
    ensures v.Bool? ==> r == Ok(if v.b then 1 else 0)
    ensures r.Err? ==> r.error == TypeError
  {
    match v
    case Int(i) => Ok(i)
    case Bool(b) => Ok(if b then 1 else 0)
    case _ => Err(TypeError)
  }
}

=== FILE: strings.dfy ===
/** Python's code-point order on `str` and `sorted` on a list of strings. */
module Strings {

  // ---------------------------------------------------------------------
  // Code-point lexicographic order (Python's `<=` on `str`)
  // ---------------------------------------------------------------------

  predicate LessEq(a: string, b: string)
    decreases |a|
  {
    |a| == 0 || (|b| > 0 && (a[0] < b[0] || (a[0] == b[0] && LessEq(a[1..], b[1..]))))
  }

  lemma {:induction false} LessEqReflexive(a: string)
    ensures LessEq(a, a)
    decreases |a|
  {
    if |a| > 0 {
      LessEqReflexive(a[1..]);
    }
  }

  lemma {:induction false} LessEqTotal(a: string, b: string)
    ensures LessEq(a, b) || LessEq(b, a)
    decreases |a|
  {
    if |a| > 0 && |b| > 0 && a[0] == b[0] {
      LessEqTotal(a[1..], b[1..]);
    }
  }

  lemma {:induction false} LessEqAntisymmetric(a: string, b: string)
    requires LessEq(a, b) && LessEq(b, a)
    ensures a == b
    decreases |a|
  {
    if |a| > 0 {
      LessEqAntisymmetric(a[1..], b[1..]);
      assert a == [a[0]] + a[1..];
      assert b == [b[0]] + b[1..];
    }
  }

  lemma {:induction false} LessEqTransitive(a: string, b: string, c: string)
    requires LessEq(a, b) && LessEq(b, c)
    ensures LessEq(a, c)
    decreases |a|
  {
    if |a| > 0 && a[0] == b[0] && b[0] == c[0] {
      LessEqTransitive(a[1..], b[1..], c[1..]);
    }
  }

  // ---------------------------------------------------------------------
  // Sorting (Python's `sorted` on a list of `str`)
  // ---------------------------------------------------------------------

  predicate Sorted(xs: seq<string>) {
    forall i, j :: 0 <= i < j < |xs| ==> LessEq(xs[i], xs[j])
  }

  /** Every element of `xs` is at least `lo`. */
  predicate AllAtLeast(lo: string, xs: seq<string>) {
    forall i :: 0 <= i < |xs| ==> LessEq(lo, xs[i])
  }

  lemma AllAtLeastByMultiset(lo: string, xs: seq<string>, ys: seq<string>)
    requires AllAtLeast(lo, xs)
    requires multiset(ys) <= multiset(xs)
    ensures AllAtLeast(lo, ys)
  {
    forall i | 0 <= i < |ys|
      ensures LessEq(lo, ys[i])
    {
      assert ys[i] in multiset(ys);
      assert ys[i] in multiset(xs);
      assert ys[i] in xs;
    }
  }

  /** Inserts `x` into a sorted sequence. */
  function Insert(x: string, xs: seq<string>): (r: seq<string>)
    requires Sorted(xs)
    ensures multiset(r) == multiset(xs) + multiset{x}
    ensures Sorted(r)
    decreases |xs|
  {
    if |xs| == 0 then [x]
    else if LessEq(x, xs[0]) then
      assert AllAtLeast(x, xs) by {
        forall i | 0 <= i < |xs| ensures LessEq(x, xs[i]) {
          if i > 0 { LessEqTransitive(x, xs[0], xs[i]); }
        }
      }
      [x] + xs
    else
      var rest := Insert(x, xs[1..]);
      assert xs == [xs[0]] + xs[1..];
      assert AllAtLeast(xs[0], rest) by {
        LessEqTotal(x, xs[0]);
        assert AllAtLeast(xs[0], xs[1..] + [x]);
        assert multiset(rest) == multiset(xs[1..] + [x]);
        AllAtLeastByMultiset(xs[0], xs[1..] + [x], rest);
      }
      [xs[0]] + rest
  }

  /** Insertion sort: the sorted permutation of `xs`. */
  function Sort(xs: seq<string>): (r: seq<string>)
    ensures multiset(r) == multiset(xs)
    ensures Sorted(r)
    decreases |xs|
  {
    if |xs| == 0 then []
    else
      assert xs == xs[..|xs| - 1] + [xs[|xs| - 1]];
      Insert(xs[|xs| - 1], Sort(xs[..|xs| - 1]))
  }

  /** The head of a sorted sequence is below every element of it. */
  lemma SortedHeadIsLeast(a: seq<string>, x: string)
    requires Sorted(a) && |a| > 0
    requires x in multiset(a)
    ensures LessEq(a[0], x)
  {
    var i :| 0 <= i < |a| && a[i] == x;
    if i == 0 { LessEqReflexive(x); }
  }

  lemma TailMultiset(a: seq<string>)
    requires |a| > 0
    ensures multiset(a[1..]) == multiset(a) - multiset{a[0]}
  {
    assert a == [a[0]] + a[1..];
  }

  /** A sorted permutation is unique: any sorting procedure that is correct
      (Python's `sorted` among them) returns the same sequence as `Sort`. */
  lemma {:induction false} SortedPermutationUnique(a: seq<string>, b: seq<string>)
    requires Sorted(a) && Sorted(b)
    requires multiset(a) == multiset(b)
    ensures a == b
    decreases |a|
  {
    assert |a| == |multiset(a)| == |multiset(b)| == |b|;
    if |a| > 0 {
      SortedHeadIsLeast(a, b[0]);
      SortedHeadIsLeast(b, a[0]);
      LessEqAntisymmetric(a[0], b[0]);
      TailMultiset(a);
      TailMultiset(b);
      SortedPermutationUnique(a[1..], b[1..]);
      assert a == [a[0]] + a[1..];
      assert b == [b[0]] + b[1..];
    }
  }

  lemma SortOfSorted(xs: seq<string>)
    requires Sorted(xs)
    ensures Sort(xs) == xs
  {
    SortedPermutationUnique(Sort(xs), xs);
  }
}

=== FILE: urlencode.dfy ===
/** `urllib.parse.urlencode` with its default `quote_plus` (nothing but
    ASCII letters, digits and `_.-~` left as is, ' ' written as '+', every
    other character as the '%XX' escapes of its UTF-8 bytes), and a query
    parser as its partner. */
module UrlEncoding {
  import opened Wrappers
  import opened Json
  import opened Words

  // ---------------------------------------------------------------------
  // UTF-8 (section 3 of RFC 3629)
  // ---------------------------------------------------------------------

  predicate IsScalar(x: int) {
    (0 <= x < 0xD800) || (0xE000 <= x < 0x11_0000)
  }

  function Utf8Encode(c: char): (bs: seq<Byte>)
    ensures 1 <= |bs| <= 4
    ensures |bs| == 1 <==> c as int < 0x80
    ensures |bs| == 1 ==> bs[0] == c as int
  {
    var x := c as int;
    if x < 0x80 then [x]
    else if x < 0x800 then [0xC0 + x / 64, 0x80 + x % 64]
    else if x < 0x1_0000 then [0xE0 + x / 4096, 0x80 + (x / 64) % 64, 0x80 + x % 64]
    else [0xF0 + x / 262144, 0x80 + (x / 4096) % 64, 0x80 + (x / 64) % 64, 0x80 + x % 64]
  }

  function Utf8EncodeString(s: string): seq<Byte>
    decreases |s|
  {
    if |s| == 0 then [] else Utf8Encode(s[0]) + Utf8EncodeString(s[1..])
  }

  predicate IsContinuation(b: Byte) {
    0x80 <= b < 0xC0
  }

  /** The length of the sequence a lead byte announces, 0 for a byte that
      cannot lead one. */
  function SequenceLength(lead: Byte): nat {
    if lead < 0x80 then 1
    else if 0xC0 <= lead < 0xE0 then 2
    else if 0xE0 <= lead < 0xF0 then 3
    else if 0xF0 <= lead < 0xF8 then 4
    else 0
  }

  /** The code point a lead byte and its continuation bytes spell. */
  function CodePoint(bs: seq<Byte>): int
    requires 1 <= |bs| <= 4
  {
    var b0 := bs[0] as int;
    if |bs| == 1 then b0
    else if |bs| == 2 then (b0 - 0xC0) * 64 + (bs[1] as int - 0x80)
    else if |bs| == 3 then (b0 - 0xE0) * 4096 + (bs[1] as int - 0x80) * 64 + (bs[2] as int - 0x80)
    else (b0 - 0xF0) * 262144 + (bs[1] as int - 0x80) * 4096 + (bs[2] as int - 0x80) * 64 + (bs[3] as int - 0x80)
  }

  /** A decoder for well-formed UTF-8 byte sequences. */
  function Utf8Decode(bs: seq<Byte>): (r: Option<string>)
    decreases |bs|
  {
    if |bs| == 0 then Some("")
    else
      var n := SequenceLength(bs[0]);
      if n == 0 || |bs| < n then None
      else if exists i :: 1 <= i < n && !IsContinuation(bs[i]) then None
      else
        var x := CodePoint(bs[..n]);
        if !IsScalar(x) then None
        else
          var rest := Utf8Decode(bs[n..]);
          if rest.None? then None else Some([x as char] + rest.value)
  }

  /** A code point read as base-64 digits: the value `x / 64^k` in front of
      its last digit. */
  lemma Digits64(x: nat)
    ensures x == (x / 64) * 64 + x % 64
    ensures x / 4096 == (x / 64) / 64
    ensures x / 262144 == (x / 4096) / 64
  {
  }

  /** The encoding of one character is a well-formed sequence for it. */
  lemma Utf8EncodeWellFormed(c: char)
    ensures var e := Utf8Encode(c);
            && SequenceLength(e[0]) == |e|
            && (forall i :: 1 <= i < |e| ==> IsContinuation(e[i]))
            && CodePoint(e) == c as int
  {
    var x := c as int;
    Digits64(x);
    Digits64(x / 64);
    Digits64(x / 4096);
    if x >= 0x1_0000 {
      assert CodePoint(Utf8Encode(c)) == (x / 262144) * 262144 + ((x / 4096) % 64) * 4096 + ((x / 64) % 64) * 64 + x % 64;
    } else if x >= 0x800 {
      assert CodePoint(Utf8Encode(c)) == (x / 4096) * 4096 + ((x / 64) % 64) * 64 + x % 64;
    }
  }

  lemma Utf8DecodeChar(c: char, rest: seq<Byte>)
    ensures Utf8Decode(rest).Some? ==>
            Utf8Decode(Utf8Encode(c) + rest) == Some([c] + Utf8Decode(rest).value)
  {
    var e := Utf8Encode(c);
    var bs := e + rest;
    Utf8EncodeWellFormed(c);
    assert bs[0] == e[0];
    assert bs[..|e|] == e;
    assert bs[|e|..] == rest;
    assert forall i :: 1 <= i < |e| ==> bs[i] == e[i];
  }

  lemma {:induction false} Utf8RoundTrip(s: string)
    ensures Utf8Decode(Utf8EncodeString(s)) == Some(s)
    decreases |s|
  {
    if |s| > 0 {
      Utf8RoundTrip(s[1..]);
      Utf8DecodeChar(s[0], Utf8EncodeString(s[1..]));
      assert s == [s[0]] + s[1..];
    }
  }

  // ---------------------------------------------------------------------
  // quote_plus
  // ---------------------------------------------------------------------

  /** The characters `quote` never escapes. */
  predicate Unreserved(c: char) {
    ('A' <= c <= 'Z') || ('a' <= c <= 'z') || ('0' <= c <= '9')
    || c == '_' || c == '.' || c == '-' || c == '~'
  }

  function HexDigit(d: int): (c: char)
    requires 0 <= d < 16
    ensures c != '&' && c != '='
  {
    if d < 10 then ('0' as int + d) as char else ('A' as int + (d - 10)) as char
  }

  function HexValue(c: char): Option<int> {
    if '0' <= c <= '9' then Some(c as int - '0' as int)
    else if 'A' <= c <= 'F' then Some(c as int - 'A' as int + 10)
    else if 'a' <= c <= 'f' then Some(c as int - 'a' as int + 10)
    else None
  }

  /** '%XX' for each byte, upper-case hexadecimal. */
  function Escape(bs: seq<Byte>): (s: string)
    ensures |s| == 3 * |bs|
    decreases |bs|
  {
    if |bs| == 0 then ""
    else ['%', HexDigit(bs[0] / 16), HexDigit(bs[0] % 16)] + Escape(bs[1..])
  }

  function QuoteChar(c: char): string {
    if Unreserved(c) then [c]
    else if c == ' ' then "+"
    else Escape(Utf8Encode(c))
  }

  /** `quote_plus(s)` with the default empty `safe` set. */
  function QuotePlus(s: string): string
    decreases |s|
  {
    if |s| == 0 then "" else QuoteChar(s[0]) + QuotePlus(s[1..])
  }

  /** `str(v)` for the scalar values a query payload holds. */
  predicate Scalar(v: Value) {
    v.Null? || v.Bool? || v.Int? || v.Str?
  }

  /** A payload `urlencode` can write: every value is a scalar. */
  predicate Encodable(p: Payload) {
    forall i :: 0 <= i < |p| ==> Scalar(p[i].1)
  }

  function PyStr(v: Value): string
    requires Scalar(v)
  {
    match v
    case Null => "None"
    case Bool(b) => if b then "True" else "False"
    case Int(i) => IntToString(i)
    case Str(s) => s
  }

  function Field(k: string, v: Value): string
    requires Scalar(v)
  {
    QuotePlus(k) + "=" + QuotePlus(PyStr(v))
  }

  function Fields(p: Payload): (fs: seq<string>)
    requires Encodable(p)
    ensures |fs| == |p|
    ensures forall i :: 0 <= i < |p| ==> fs[i] == Field(p[i].0, p[i].1)
    decreases |p|
  {
    if |p| == 0 then [] else [Field(p[0].0, p[0].1)] + Fields(p[1..])
  }

  /** `urlencode(p)`: `key=value` fields, quoted, joined by '&'. */
  function UrlEncode(p: Payload): string
    requires Encodable(p)
  {
    Join(Fields(p), "&")
  }

  // ---------------------------------------------------------------------
  // The partner: undoing the quoting and splitting the query
  // ---------------------------------------------------------------------

  /** The bytes a quoted ASCII string stands for: '%XX' is one byte, '+' is
      a space, any other ASCII character is itself. */
  function Unescape(s: string): (r: Option<seq<Byte>>)
    decreases |s|
  {
    if |s| == 0 then Some([])
    else if s[0] == '%' then
      if |s| < 3 || HexValue(s[1]).None? || HexValue(s[2]).None? then None
      else
        var rest := Unescape(s[3..]);
        if rest.None? then None
        else Some([HexValue(s[1]).value * 16 + HexValue(s[2]).value] + rest.value)
    else if s[0] == '+' then
      var rest := Unescape(s[1..]);
      if rest.None? then None else Some([' ' as int] + rest.value)
    else if s[0] as int < 0x80 then
      var rest := Unescape(s[1..]);
      if rest.None? then None else Some([s[0] as int] + rest.value)
    else None
  }

  function UnquotePlus(s: string): Option<string> {
    var bs := Unescape(s);
    if bs.None? then None else Utf8Decode(bs.value)
  }

  lemma HexRoundTrip(d: int)
    requires 0 <= d < 16
    ensures HexValue(HexDigit(d)) == Some(d)
  {
  }

  lemma {:induction false} UnescapeEscape(bs: seq<Byte>, rest: string)
    ensures Unescape(rest).Some? ==> Unescape(Escape(bs) + rest) == Some(bs + Unescape(rest).value)
    decreases |bs|
  {
    if |bs| > 0 && Unescape(rest).Some? {
      var b := bs[0];
      var s := Escape(bs) + rest;
      var tail := Escape(bs[1..]) + rest;
      HexRoundTrip(b / 16);
      HexRoundTrip(b % 16);
      assert s == ['%', HexDigit(b / 16), HexDigit(b % 16)] + tail;
      assert s[3..] == tail;
      UnescapeEscape(bs[1..], rest);
      assert Unescape(tail) == Some(bs[1..] + Unescape(rest).value);
      assert (b / 16) * 16 + b % 16 == b;
      assert Unescape(s) == Some([b] + Unescape(tail).value);
      assert [b] + (bs[1..] + Unescape(rest).value) == bs + Unescape(rest).value;
    } else if |bs| == 0 && Unescape(rest).Some? {
      assert Escape(bs) + rest == rest;
      assert bs + Unescape(rest).value == Unescape(rest).value;
    }
  }

  lemma UnescapeQuoteChar(c: char, rest: string)
    ensures Unescape(rest).Some? ==>
            Unescape(QuoteChar(c) + rest) == Some(Utf8Encode(c) + Unescape(rest).value)
  {
    if Unreserved(c) || c == ' ' {
      assert (QuoteChar(c) + rest)[1..] == rest;
    } else {
      UnescapeEscape(Utf8Encode(c), rest);
    }
  }

  lemma {:induction false} UnescapeQuotePlus(s: string)
    ensures Unescape(QuotePlus(s)) == Some(Utf8EncodeString(s))
    decreases |s|
  {
    if |s| > 0 {
      UnescapeQuotePlus(s[1..]);
      UnescapeQuoteChar(s[0], QuotePlus(s[1..]));
    }
  }

  /** Unquoting undoes `quote_plus`. */
  lemma QuotePlusRoundTrip(s: string)
    ensures UnquotePlus(QuotePlus(s)) == Some(s)
  {
    UnescapeQuotePlus(s);
    Utf8RoundTrip(s);
  }

  lemma {:induction false} EscapeFree(bs: seq<Byte>, c: char)
    requires c != '%' && c != '0' && c != '1' && c != '2' && c != '3' && c != '4'
    requires c != '5' && c != '6' && c != '7' && c != '8' && c != '9'
    requires !('A' <= c <= 'F')
    ensures Free(Escape(bs), c)
    decreases |bs|
  {
    if |bs| > 0 {
      EscapeFree(bs[1..], c);
      var s := Escape(bs);
      assert s == ['%', HexDigit(bs[0] / 16), HexDigit(bs[0] % 16)] + Escape(bs[1..]);
      forall i | 0 <= i < |s| ensures s[i] != c {
        if i >= 3 { assert s[i] == Escape(bs[1..])[i - 3]; }
      }
    }
  }

  /** A quoted string holds neither of the query delimiters '&' and '='. */
  lemma {:induction false} QuotePlusFree(s: string)
    ensures Free(QuotePlus(s), '&') && Free(QuotePlus(s), '=')
    decreases |s|
  {
    if |s| > 0 {
      QuotePlusFree(s[1..]);
      var q := QuoteChar(s[0]);
      EscapeFree(Utf8Encode(s[0]), '&');
      EscapeFree(Utf8Encode(s[0]), '=');
      var r := q + QuotePlus(s[1..]);
      forall i | 0 <= i < |r| ensures r[i] != '&' && r[i] != '=' {
        if i >= |q| { assert r[i] == QuotePlus(s[1..])[i - |q|]; }
      }
    }
  }

  /** Parses a `key=value&key=value` query back into its decoded pairs. */
  function ParseQuery(q: string): Option<seq<(string, string)>> {
    if q == "" then Some([]) else ParsePairs(SplitOn(q, '&'))
  }

  function ParsePairs(fields: seq<string>): Option<seq<(string, string)>>
    decreases |fields|
  {
    if |fields| == 0 then Some([])
    else
      var kv := SplitOn(fields[0], '=');
      if |kv| != 2 then None
      else
        var k, v, rest := UnquotePlus(kv[0]), UnquotePlus(kv[1]), ParsePairs(fields[1..]);
        if k.None? || v.None? || rest.None? then None
        else Some([(k.value, v.value)] + rest.value)
  }

  /** A payload as the decoded text pairs a server reads from the query. */
  function TextPairs(p: Payload): (r: seq<(string, string)>)
    requires Encodable(p)
    ensures |r| == |p|
    ensures forall i :: 0 <= i < |p| ==> r[i] == (p[i].0, PyStr(p[i].1))
    decreases |p|
  {
    if |p| == 0 then [] else [(p[0].0, PyStr(p[0].1))] + TextPairs(p[1..])
  }

  lemma FieldParses(k: string, v: Value)
    requires Scalar(v)
    ensures Free(Field(k, v), '&')
    ensures SplitOn(Field(k, v), '=') == [QuotePlus(k), QuotePlus(PyStr(v))]
  {
    var qk, qv := QuotePlus(k), QuotePlus(PyStr(v));
    QuotePlusFree(k);
    QuotePlusFree(PyStr(v));
    assert Join([qk, qv], "=") == Field(k, v);
    SplitOnJoin([qk, qv], '=');
    var f := Field(k, v);
    forall i | 0 <= i < |f| ensures f[i] != '&' {
      if i > |qk| { assert f[i] == qv[i - |qk| - 1]; }
    }
  }

  lemma {:induction false} ParsePairsFields(p: Payload)
    requires Encodable(p)
    ensures ParsePairs(Fields(p)) == Some(TextPairs(p))
    decreases |p|
  {
    if |p| > 0 {
      FieldParses(p[0].0, p[0].1);
      QuotePlusRoundTrip(p[0].0);
      QuotePlusRoundTrip(PyStr(p[0].1));
      ParsePairsFields(p[1..]);
      assert Fields(p)[1..] == Fields(p[1..]);
    }
  }

  /** The encoded query parses back to the payload's pairs, in order. */
  lemma UrlEncodeRoundTrip(p: Payload)
    requires Encodable(p)
    ensures ParseQuery(UrlEncode(p)) == Some(TextPairs(p))
  {
    var fs := Fields(p);
    if |p| > 0 {
      forall i | 0 <= i < |fs| ensures Free(fs[i], '&') {
        FieldParses(p[i].0, p[i].1);
      }
      SplitOnJoin(fs, '&');
      FieldParses(p[0].0, p[0].1);
      assert |fs[0]| > 0;
      assert UrlEncode(p) != "" by {
        if |fs| > 1 { } 
      }
      ParsePairsFields(p);
    }
  }
}

=== FILE: utils.dfy ===
/** The token helpers of pyotify/utils.py. The wall-clock reading
    `int(time.time())` is the parameter `now`. */
module Utils {
  import opened Wrappers
  import opened Json
  import opened Strings
  import opened Words
  import Base64

  /** The early-refresh margin, in seconds, `is_token_expired` uses by default. */
  const DefaultExpiryOffset: int := 60

  // ---------------------------------------------------------------------
  // normalize_scope
  // ---------------------------------------------------------------------

  lemma SortKeepsWords(ws: seq<string>)
    requires forall i :: 0 <= i < |ws| ==> IsWord(ws[i])
    ensures forall i :: 0 <= i < |Sort(ws)| ==> IsWord(Sort(ws)[i])
  {
    var r := Sort(ws);
    forall i | 0 <= i < |r|
      ensures IsWord(r[i])
    {
      assert r[i] in multiset(r);
      assert r[i] in ws;
    }
  }

  /** `normalize_scope(scope)`: the whitespace-separated words of `scope`,
      duplicates kept, sorted by code point and joined by single spaces. */
  function NormalizeScope(scope: string): (r: string)
    ensures multiset(Split(r)) == multiset(Split(scope))
    ensures Sorted(Split(r))
    ensures Canonical(r)
    ensures r == "" <==> Split(scope) == []
  {
    var ws := Sort(Split(scope));
    SortKeepsWords(Split(scope));
    SplitJoin(ws);
    JoinCanonical(ws);
    Join(ws, " ")
  }

  /** Normalising twice is normalising once. */
  lemma NormalizeScopeIdempotent(scope: string)
    ensures NormalizeScope(NormalizeScope(scope)) == NormalizeScope(scope)
  {
    var ws := Sort(Split(scope));
    SortKeepsWords(Split(scope));
    SplitJoin(ws);
    SortOfSorted(ws);
  }

  /** Two scope strings normalise alike exactly when they hold the same
      words with the same multiplicities. */
  lemma NormalizeScopeEquivalence(a: string, b: string)
    ensures NormalizeScope(a) == NormalizeScope(b) <==> multiset(Split(a)) == multiset(Split(b))
  {
    var sa, sb := Sort(Split(a)), Sort(Split(b));
    if multiset(Split(a)) == multiset(Split(b)) {
      SortedPermutationUnique(sa, sb);
    }
    if NormalizeScope(a) == NormalizeScope(b) {
      SortKeepsWords(Split(a));
      SortKeepsWords(Split(b));
      SplitJoin(sa);
      SplitJoin(sb);
    }
  }

  // ---------------------------------------------------------------------
  // is_token_expired
  // ---------------------------------------------------------------------

  /** `is_token_expired(token, offset)` at wall-clock second `now`: fewer
      than `offset` seconds of validity remain. Raises when the token has no
      `expires_at` or it is not a number. */
  function IsTokenExpired(token: Token, now: int, offset: int := DefaultExpiryOffset): (r: Result<bool>)
    ensures r.Err? <==> "expires_at" !in token || AsInt(token["expires_at"]).Err?
    ensures r.Err? ==> "expires_at" !in token ==> r.error == KeyError("expires_at")
    ensures r.Ok? ==> (r.value <==> AsInt(token["expires_at"]).value < now + offset)
  {
    if "expires_at" !in token then Err(KeyError("expires_at"))
    else
      var expiresAt :- AsInt(token["expires_at"]);
      Ok(expiresAt - now < offset)
  }

  /** Once expired, a token stays expired as the clock moves forward. */
  lemma IsTokenExpiredMonotone(token: Token, now: int, later: int, offset: int)
    requires now <= later
    requires IsTokenExpired(token, now, offset) == Ok(true)
    ensures IsTokenExpired(token, later, offset) == Ok(true)
  {
  }

  // ---------------------------------------------------------------------
  // get_authorization_headers
  // ---------------------------------------------------------------------

  predicate IsAscii(s: string) {
    forall i :: 0 <= i < |s| ==> s[i] as int < 128
  }

  /** `s.encode('ascii')` for an ASCII string. */
  function AsciiBytes(s: string): (bs: seq<Byte>)
    requires IsAscii(s)
    ensures |bs| == |s|
    ensures forall i :: 0 <= i < |s| ==> bs[i] == s[i] as int
  {
    seq(|s|, i requires 0 <= i < |s| => s[i] as int)
  }

  /** `bs.decode('ascii')` for bytes below 128. */
  function AsciiText(bs: seq<Byte>): (s: string)
    requires forall i :: 0 <= i < |bs| ==> bs[i] < 128
    ensures |s| == |bs|
    ensures forall i :: 0 <= i < |bs| ==> s[i] as int == bs[i]
  {
    seq(|bs|, i requires 0 <= i < |bs| => bs[i] as char)
  }

  /** `get_authorization_headers(client_id, client_secret)`: the single
      header of the HTTP Basic scheme (section 2 of RFC 7617) whose
      credentials are the RFC 4648 Base64 of `client_id:client_secret`.
      A non-ASCII character in either part raises `UnicodeEncodeError`. */
  function AuthorizationHeaders(clientId: string, clientSecret: string): (r: Result<map<string, string>>)
    ensures r.Ok? <==> IsAscii(clientId) && IsAscii(clientSecret)
    ensures r.Err? ==> r.error == UnicodeEncodeError
    ensures r.Ok? ==> r.value.Keys == {"Authorization"}
    ensures r.Ok? ==>
      var v := r.value["Authorization"];
      && |v| == 6 + 4 * ((|clientId| + |clientSecret| + 3) / 3)
      && v[..6] == "Basic "
      && var decoded := Base64.Decode(v[6..]);
      && decoded.Some?
      && (forall i :: 0 <= i < |decoded.value| ==> decoded.value[i] < 128)
      && AsciiText(decoded.value) == clientId + ":" + clientSecret
  {
    var credentials := clientId + ":" + clientSecret;
    if !IsAscii(credentials) then
      assert !IsAscii(clientId) || !IsAscii(clientSecret) by {
        var i :| 0 <= i < |credentials| && credentials[i] as int >= 128;
        if i < |clientId| { assert credentials[i] == clientId[i]; }
        else if i > |clientId| { assert credentials[i] == clientSecret[i - |clientId| - 1]; }
      }
      Err(UnicodeEncodeError)
    else
      assert IsAscii(clientId) && IsAscii(clientSecret) by {
        forall i | 0 <= i < |clientId| ensures clientId[i] as int < 128 {
          assert credentials[i] == clientId[i];
        }
        forall i | 0 <= i < |clientSecret| ensures clientSecret[i] as int < 128 {
          assert credentials[|clientId| + 1 + i] == clientSecret[i];
        }
      }
      var bytes := AsciiBytes(credentials);
      var encoded := Base64.Encode(bytes);
      Base64.DecodeEncode(bytes);
      Base64.EncodeLength(bytes);
      var v := "Basic " + encoded;
      assert v[6..] == encoded;
      Ok(map["Authorization" := v])
  }

  // ---------------------------------------------------------------------
  // add_custom_values_to_token
  // ---------------------------------------------------------------------

  /** `add_custom_values_to_token(token, scope)` at wall-clock second `now`:
      stamps `expires_at = expires_in + now` and, for a truthy `scope`,
      overwrites `scope`; every other entry is kept. Raises when
      `expires_in` is missing or not a number. */
  function AddCustomValuesToToken(token: Token, now: int, scope: Option<string> := None): (r: Result<Token>)
    ensures r.Err? <==> "expires_in" !in token || AsInt(token["expires_in"]).Err?
    ensures r.Err? ==> "expires_in" !in token ==> r.error == KeyError("expires_in")
    ensures r.Ok? ==>
      && r.value.Keys == token.Keys + {"expires_at"} + (if Truthy(scope) then {"scope"} else {})
      && r.value["expires_at"] == Int(AsInt(token["expires_in"]).value + now)
      && (Truthy(scope) ==> r.value["scope"] == Str(scope.value))
      && forall k :: k in token && k != "expires_at" && (k != "scope" || !Truthy(scope)) ==> r.value[k] == token[k]
  {
    if "expires_in" !in token then Err(KeyError("expires_in"))
    else
      var expiresIn :- AsInt(token["expires_in"]);
      var stamped := token["expires_at" := Int(expiresIn + now)];
      if Truthy(scope) then Ok(stamped["scope" := Str(scope.value)]) else Ok(stamped)
  }

  /** A token stamped at `now` with lifetime `e` already counts as expired
      at that same second exactly when `e` is below the 60-second margin. */
  lemma FreshTokenExpiry(token: Token, now: int, scope: Option<string>)
    requires "expires_in" in token && token["expires_in"].Int?
    ensures AddCustomValuesToToken(token, now, scope).Ok?
    ensures IsTokenExpired(AddCustomValuesToToken(token, now, scope).value, now)
            == Ok(token["expires_in"].i < DefaultExpiryOffset)
  {
  }
}

=== FILE: words.dfy ===
/** Python `str` splitting and joining: `str.split()`, `str.split(sep)`,
    `sep.join` and `str(int)`. */
module Words {
  // ---------------------------------------------------------------------
  // Whitespace splitting (Python's argument-less `str.split()`)
  // ---------------------------------------------------------------------

  /** The characters `str.isspace()` accepts, which the argument-less
      `str.split()` treats as separators. */
  predicate IsSpace(c: char) {
    || c == ' ' || ('\t' <= c <= '\r')              // \t \n \v \f \r
    || ('\U{1C}' <= c <= '\U{1F}')                  // file/group/record/unit separators
    || c == '\U{85}' || c == '\U{A0}' || c == '\U{1680}'
    || ('\U{2000}' <= c <= '\U{200A}')
    || c == '\U{2028}' || c == '\U{2029}' || c == '\U{202F}' || c == '\U{205F}' || c == '\U{3000}'
  }

  /** A word `str.split()` can return: non-empty, without whitespace. */
  predicate IsWord(w: string) {
    |w| > 0 && forall i :: 0 <= i < |w| ==> !IsSpace(w[i])
  }

  /** Length of the leading run of non-whitespace characters. */
  function WordLength(s: string): (n: nat)
    ensures n <= |s|
    ensures forall i :: 0 <= i < n ==> !IsSpace(s[i])
    ensures n < |s| ==> IsSpace(s[n])
    decreases |s|
  {
    if |s| == 0 || IsSpace(s[0]) then 0 else 1 + WordLength(s[1..])
  }

  /** The non-whitespace characters of `s`, in order. */
  function NonSpace(s: string): string
    decreases |s|
  {
    if |s| == 0 then "" else (if IsSpace(s[0]) then "" else [s[0]]) + NonSpace(s[1..])
  }

  /** The number of positions of `s` where a word starts: a non-whitespace
      character at the start or after a whitespace character.
      `afterSpace` says whether the character before `s` (if any) is
      whitespace. */
  function WordStarts(s: string, afterSpace: bool := true): nat
    decreases |s|
  {
    if |s| == 0 then 0
    else (if afterSpace && !IsSpace(s[0]) then 1 else 0) + WordStarts(s[1..], IsSpace(s[0]))
  }

  lemma {:induction false} NonSpaceAppend(a: string, b: string)
    ensures NonSpace(a + b) == NonSpace(a) + NonSpace(b)
    decreases |a|
  {
    if |a| == 0 {
      assert a + b == b;
    } else {
      assert (a + b)[0] == a[0];
      assert (a + b)[1..] == a[1..] + b;
      NonSpaceAppend(a[1..], b);
    }
  }

  lemma {:induction false} NonSpaceOfRun(s: string, n: nat)
    requires n <= |s|
    requires forall i :: 0 <= i < n ==> !IsSpace(s[i])
    ensures NonSpace(s[..n]) == s[..n]
    decreases n
  {
    if n > 0 {
      assert s[..n][1..] == s[1..][..n - 1];
      NonSpaceOfRun(s[1..], n - 1);
    }
  }

  /** Inside a word no new word starts. */
  lemma {:induction false} WordStartsInRun(s: string, n: nat)
    requires 1 <= n <= |s|
    requires forall i :: 0 <= i < n ==> !IsSpace(s[i])
    ensures WordStarts(s[1..], false) == WordStarts(s[n..], false)
    decreases n
  {
    if n > 1 {
      WordStartsInRun(s[1..], n - 1);
      assert s[1..][1..] == s[2..];
      assert s[1..][n - 1..] == s[n..];
    }
  }

  /** `s` with leading and trailing whitespace removed and every inner run
      of whitespace written as one ' '. */
  function Squeeze(s: string): string
    decreases |s|, 1
  {
    if |s| == 0 then ""
    else if IsSpace(s[0]) then Squeeze(s[1..])
    else [s[0]] + SqueezeAfterWord(s[1..])
  }

  /** `Squeeze` of what follows a non-whitespace character. */
  function SqueezeAfterWord(s: string): string
    decreases |s|, 0
  {
    if |s| == 0 then ""
    else if IsSpace(s[0]) then
      var r := Squeeze(s[1..]);
      if r == "" then "" else " " + r
    else [s[0]] + SqueezeAfterWord(s[1..])
  }

  lemma SqueezeAfterWordStep(u: string)
    requires |u| > 0 && !IsSpace(u[0])
    ensures SqueezeAfterWord(u) == [u[0]] + SqueezeAfterWord(u[1..])
  {
  }

  /** Inside a word, `SqueezeAfterWord` copies the characters. */
  lemma {:induction false} SqueezeInRun(s: string, n: nat)
    requires 1 <= n <= |s|
    requires forall i :: 0 <= i < n ==> !IsSpace(s[i])
    ensures SqueezeAfterWord(s[1..]) == s[1..n] + SqueezeAfterWord(s[n..])
    decreases n
  {
    if n > 1 {
      var u := s[1..];
      SqueezeInRun(u, n - 1);
      SqueezeAfterWordStep(u);
      assert u[1..] == s[2..];
      assert u[n - 1..] == s[n..];
      assert u[1..n - 1] == s[2..n];
      assert s[1..n] == [u[0]] + s[2..n];
    }
  }

  /** `s.split()`: the maximal whitespace-free runs of `s`, in order. The
      words joined by single spaces are `s` squeezed, which fixes where
      each word begins and ends. The words put together are exactly the
      non-whitespace characters of `s`, and there is one word for every
      place a word starts. */
  function Split(s: string): (ws: seq<string>)
    ensures forall i :: 0 <= i < |ws| ==> IsWord(ws[i])
    ensures Join(ws, " ") == Squeeze(s)
    ensures Join(ws, "") == NonSpace(s)
    ensures |ws| == WordStarts(s)
    decreases |s|
  {
    if |s| == 0 then []
    else if IsSpace(s[0]) then Split(s[1..])
    else
      var n := WordLength(s);
      var rest := Split(s[n..]);
      assert s == s[..n] + s[n..];
      NonSpaceAppend(s[..n], s[n..]);
      NonSpaceOfRun(s, n);
      WordStartsInRun(s, n);
      assert WordStarts(s[n..], false) == WordStarts(s[n..]) by {
        if n < |s| { assert IsSpace(s[n..][0]); }
      }
      JoinEmptySeparator(s[..n], rest);
      SqueezeWord(s, n, rest);
      [s[..n]] + rest
  }

  lemma SqueezeAtWord(s: string)
    requires |s| > 0 && !IsSpace(s[0])
    ensures Squeeze(s) == [s[0]] + SqueezeAfterWord(s[1..])
  {
  }

  /** After a word, a whitespace run becomes one ' ' unless nothing but
      whitespace follows. */
  lemma SqueezeAfterSpace(u: string)
    requires |u| > 0 && IsSpace(u[0])
    ensures SqueezeAfterWord(u) == if Squeeze(u) == "" then "" else " " + Squeeze(u)
  {
  }

  lemma JoinCons(w: string, ws: seq<string>, sep: string)
    ensures Join([w] + ws, sep) == if |ws| == 0 then w else w + sep + Join(ws, sep)
  {
    if |ws| > 0 {
      assert ([w] + ws)[1..] == ws;
    }
  }

  /** What follows a word squeezes to nothing or to ' ' and the rest. */
  lemma SqueezeAfterWordTail(u: string, rest: seq<string>)
    requires |u| == 0 || IsSpace(u[0])
    requires forall i :: 0 <= i < |rest| ==> IsWord(rest[i])
    requires Join(rest, " ") == Squeeze(u)
    ensures SqueezeAfterWord(u) == if |rest| == 0 then "" else " " + Join(rest, " ")
  {
    JoinCanonical(rest);
    if |u| > 0 {
      SqueezeAfterSpace(u);
    }
  }

  lemma JoinThenTail(w: string, rest: seq<string>, tail: string)
    requires tail == if |rest| == 0 then "" else " " + Join(rest, " ")
    ensures Join([w] + rest, " ") == w + tail
  {
    JoinCons(w, rest, " ");
    if |rest| == 0 {
      assert w + tail == w;
    }
  }

  lemma ConsThenTail(c: char, b: string, w: string, t: string)
    requires w == [c] + b
    ensures [c] + (b + t) == w + t
  {
  }

  /** The squeeze of a string that starts with a word of length `n`. */
  lemma SqueezeWord(s: string, n: nat, rest: seq<string>)
    requires 1 <= n <= |s|
    requires forall i :: 0 <= i < n ==> !IsSpace(s[i])
    requires n < |s| ==> IsSpace(s[n])
    requires forall i :: 0 <= i < |rest| ==> IsWord(rest[i])
    requires Join(rest, " ") == Squeeze(s[n..])
    ensures Join([s[..n]] + rest, " ") == Squeeze(s)
  {
    var t := SqueezeAfterWord(s[n..]);
    SqueezeAfterWordTail(s[n..], rest);
    JoinThenTail(s[..n], rest, t);
    SqueezeInRun(s, n);
    SqueezeAtWord(s);
    assert s[..n] == [s[0]] + s[1..n];
    ConsThenTail(s[0], s[1..n], s[..n], t);
  }

  lemma JoinEmptySeparator(w: string, ws: seq<string>)
    ensures Join([w] + ws, "") == w + Join(ws, "")
  {
    if |ws| > 0 {
      assert ([w] + ws)[1..] == ws;
    }
  }

  /** Python's `w in t` on strings: `w` occurs in `t` as a substring. */
  predicate Contains(t: string, w: string)
    decreases |t|
  {
    |t| >= |w| && (t[..|w|] == w || Contains(t[1..], w))
  }

  /** `sep.join(ws)`. */
  function Join(ws: seq<string>, sep: string): string
    decreases |ws|
  {
    if |ws| == 0 then ""
    else if |ws| == 1 then ws[0]
    else ws[0] + sep + Join(ws[1..], sep)
  }

  lemma WordLengthStep(s: string)
    requires |s| > 0 && !IsSpace(s[0])
    ensures WordLength(s) == 1 + WordLength(s[1..])
  {
  }

  lemma {:induction false} WordLengthOfWord(w: string, rest: string)
    requires IsWord(w)
    requires |rest| == 0 || IsSpace(rest[0])
    ensures WordLength(w + rest) == |w|
    decreases |w|
  {
    var s := w + rest;
    assert s[0] == w[0];
    WordLengthStep(s);
    assert s[1..] == w[1..] + rest;
    if |w| > 1 {
      WordLengthOfWord(w[1..], rest);
    } else {
      assert s[1..] == rest;
    }
  }

  /** Splitting a space-joined list of words gives the words back. */
  lemma {:induction false} SplitJoin(ws: seq<string>)
    requires forall i :: 0 <= i < |ws| ==> IsWord(ws[i])
    ensures Split(Join(ws, " ")) == ws
    decreases |ws|
  {
    if |ws| == 1 {
      var w := ws[0];
      WordLengthOfWord(w, "");
      assert w + "" == w;
      SplitAtWord(w, |w|);
      assert w[|w|..] == "";
    } else if |ws| > 1 {
      var w := ws[0];
      var tail := Join(ws[1..], " ");
      SplitJoin(ws[1..]);
      SplitWordThen(w, tail);
      assert ws == [w] + ws[1..];
    }
  }

  /** One unfolding of `Split` at a word of length `n`. */
  lemma SplitAtWord(s: string, n: nat)
    requires |s| > 0 && !IsSpace(s[0]) && WordLength(s) == n
    ensures Split(s) == [s[..n]] + Split(s[n..])
  {
  }

  /** A word, a space, then `tail`, splits into the word and `tail`'s words. */
  lemma SplitWordThen(w: string, tail: string)
    requires IsWord(w)
    ensures Split(w + " " + tail) == [w] + Split(tail)
  {
    var s := w + " " + tail;
    assert s == w + (" " + tail);
    WordLengthOfWord(w, " " + tail);
    SplitAtWord(s, |w|);
    assert s[..|w|] == w;
    assert s[|w|..] == " " + tail;
    assert (" " + tail)[1..] == tail;
  }

  /** A space-joined list of words is in canonical form: it neither starts
      nor ends with whitespace, and every whitespace character in it is a
      single ' ' between two non-whitespace characters. */
  predicate Canonical(s: string) {
    && (|s| > 0 ==> !IsSpace(s[0]) && !IsSpace(s[|s| - 1]))
    && forall i :: 0 <= i < |s| && IsSpace(s[i]) ==>
         s[i] == ' ' && 0 < i < |s| - 1 && !IsSpace(s[i - 1]) && !IsSpace(s[i + 1])
  }

  lemma {:induction false} JoinCanonical(ws: seq<string>)
    requires forall i :: 0 <= i < |ws| ==> IsWord(ws[i])
    ensures Canonical(Join(ws, " "))
    ensures Join(ws, " ") == "" <==> |ws| == 0
    decreases |ws|
  {
    if |ws| > 1 {
      var w := ws[0];
      var tail := Join(ws[1..], " ");
      JoinCanonical(ws[1..]);
      var s := w + " " + tail;
      assert |tail| > 0;
      forall i | 0 <= i < |s| && IsSpace(s[i])
        ensures s[i] == ' ' && 0 < i < |s| - 1 && !IsSpace(s[i - 1]) && !IsSpace(s[i + 1])
      {
        if i > |w| {
          assert s[i] == tail[i - |w| - 1];
        }
      }
    }
  }

  // ---------------------------------------------------------------------
  // Splitting on one separator character (Python's `str.split(sep)`)
  // ---------------------------------------------------------------------

  predicate Free(s: string, c: char) {
    forall i :: 0 <= i < |s| ==> s[i] != c
  }

  /** Length of the leading run without `c`. */
  function FieldLength(s: string, c: char): (n: nat)
    ensures n <= |s|
    ensures forall i :: 0 <= i < n ==> s[i] != c
    ensures n < |s| ==> s[n] == c
    decreases |s|
  {
    if |s| == 0 || s[0] == c then 0 else 1 + FieldLength(s[1..], c)
  }

  /** `s.split(c)`: always at least one field; fields never contain `c`. */
  function SplitOn(s: string, c: char): (fs: seq<string>)
    ensures |fs| >= 1
    ensures forall i :: 0 <= i < |fs| ==> Free(fs[i], c)
    decreases |s|
  {
    var n := FieldLength(s, c);
    if n == |s| then [s] else [s[..n]] + SplitOn(s[n + 1..], c)
  }

  lemma FieldLengthOfField(f: string, c: char, rest: string)
    requires Free(f, c)
    requires |rest| == 0 || rest[0] == c
    ensures FieldLength(f + rest, c) == |f|
    decreases |f|
  {
    if |f| > 0 {
      assert (f + rest)[1..] == f[1..] + rest;
      FieldLengthOfField(f[1..], c, rest);
    }
  }

  /** Splitting a `c`-joined list of `c`-free fields gives the fields back. */
  lemma {:induction false} SplitOnJoin(fs: seq<string>, c: char)
    requires |fs| >= 1
    requires forall i :: 0 <= i < |fs| ==> Free(fs[i], c)
    ensures SplitOn(Join(fs, [c]), c) == fs
    decreases |fs|
  {
    var f := fs[0];
    if |fs| == 1 {
      FieldLengthOfField(f, c, "");
      assert f + "" == f;
    } else {
      var tail := Join(fs[1..], [c]);
      var s := f + [c] + tail;
      assert s == f + ([c] + tail);
      FieldLengthOfField(f, c, [c] + tail);
      assert s[..|f|] == f;
      assert s[|f| + 1..] == tail;
      SplitOnJoin(fs[1..], c);
      assert fs == [f] + fs[1..];
    }
  }

  // ---------------------------------------------------------------------
  // Decimal rendering (Python's `str(int)`)
  // ---------------------------------------------------------------------

  function DigitChar(d: nat): char
    requires d < 10
  {
    ('0' as int + d) as char
  }

  function NatToString(n: nat): (s: string)
    ensures |s| > 0
    ensures forall i :: 0 <= i < |s| ==> '0' <= s[i] <= '9'
    decreases n
  {
    if n < 10 then [DigitChar(n)] else NatToString(n / 10) + [DigitChar(n % 10)]
  }

  function IntToString(n: int): string {
    if n < 0 then "-" + NatToString(-n) else NatToString(n)
  }
}

=== FILE: wrappers.dfy ===
/** Failure-carrying results for the Python calls that can raise. */
module Wrappers {

  /** An 8-bit byte. */
  type Byte = x: int | 0 <= x < 256

  datatype Option<+T> = None | Some(value: T)

  /** The Python exceptions the modelled code can raise, by kind. */
  datatype PyError =
    | KeyError(key: string)           // `d[key]` on a dict without that key
    | TypeError                       // an operation on a value of the wrong type
    | IndexError                      // `xs[0]` on an empty sequence
    | AttributeError                  // `None.split()`
    | UnicodeEncodeError              // `str.encode('ascii')` on a non-ASCII character
    | JsonDecodeError                 // a reply body that is not the expected JSON
    | HttpError(status: int)          // `Response.raise_for_status()`

  datatype Result<+T> = Ok(value: T) | Err(error: PyError) {
    predicate IsFailure() { Err? }

    function PropagateFailure<U>(): Result<U>
      requires Err?
    {
      Err(error)
    }

    function Extract(): T
      requires Ok?
    {
      value
    }
  }

  /** Python truthiness of an optional string: `None` and `''` are false. */
  predicate Truthy(s: Option<string>) {
    s.Some? && s.value != ""
  }
}
